=== FILE: README.md ===
# Negotiated turns over a coordinated peer group, in Dafny

This project models the core of a small peer-to-peer negotiation library.
A group of participants first forms a membership registry through a host.
Then any participant can propose a *chain*: an owner-tagged, append-only
list of actions. The others either OK the chain or answer with a *counter*,
which extends it. The proposer commits once everyone has OKed. If anyone
countered, the proposer hands the offer back to the application, which may
accept one counter and propose it afresh.

Modules, one file each:

- `Chains` (`chain.dfy`): actions, chains, the chain hash, `counter` and `is_counter` (Offer.py).
- `Offers` (`offer.dfy`): messages and the `Offer` state machine as a class (Offer.py).
- `Trading` (`trader.dfy`): the `Trader` class. It keeps an index of offers keyed by chain hash, an outbox of addressed messages, and a log of `respond`/`committed` callbacks (Trader.py).
- `Roster` (`roster.dfy`): the membership registry as values. It covers join-order pids, consistency of `pids` against `participants`, and whom each peer dials (deCoordinated.py).
- `Membership` (`membership.dfy`): the `Coordinator` class. It holds the registry, the host and guest setup steps, message handling and the connection sequence (deCoordinated.py).
- `Coordination` (`coordinated.dfy`): the earlier `Coordinated` class. Its registry is a dictionary from pid to identity (Coordinated.py).
- `Turns` (`turn.dfy`): the earlier `Turn` record (Turn.py).

Modelling choices:

- Python's `hash(chain)` is the injective key `ChainKey(owner, action hashes)`, and `hash(action)` is the key of its owner and content.
- `hash(None)` is a separate `NoneKey`.
- A stored `prev` hash is looked up as itself. This is an assumption: it takes `hash(h) == h` for a stored hash and the same hash on every participant (see `Chains.LookupKey` under "Left out").
- An action carries the identity of its Python object (`id`), which its hash ignores. `Action` defines `__hash__` but no `__eq__`, so `==` on lists of actions compares identities. A deep copy (`Offer.receive`) and unpickling a received message (`on_receive`) create new action objects; their identities are numbered from a `base` parameter (`Chains.Copy`, `Offers.Unpickled`). Python never reuses the identity of a live object, so a copy's identities are fresh only when `base` is above every identity in use; the model leaves `base` free and states the consequences of freshness under that premise (see `Chains.Copy` under "Left out").
- Failed `assert`s on the application-facing API are preconditions.
- An exception that network input or a caller's argument can trigger is an explicit result. Examples: a `KeyError` on an unknown hash (`__recv`, `reject`), an `IndexError` (`send_to_pid`, `__ack_participant__`, `__fill_participants__`), or a failed assertion inside a handler. Changes made before the exception are kept, as in the source:
  - `Trading.Trader.OkHandled`: the OK is recorded on the offer's chain even when the commit assertion then fails (`AssertionFailed`).
  - `Trading.Trader.CounterHandled`: an added counter stays in `counters` in the same case.
  - `Membership.Coordinator.Filled`: the adopted `own_pid`, `participants` and `pids` stay when the empty roster then raises (`Raised`).
  Where the exception comes first, nothing changes.
- Threads, events and retry loops become step methods. A step's precondition stands for "the awaited event has been set".
- Every `connect` attempt is one step, and its outcome (a handle or failure) is a parameter.
- Sends are appended to an outbox sequence; dial attempts are recorded in `dials`.

Source behaviour modelled as written:

- `Offer.committed` compares instead of assigning, so it changes nothing.
- In the COUNTERED state `get_message` carries the counter *offer* rather than a chain (`CounterOfferBody`). The receiver's `message.chain.prev` then reads the Offer's `prev`, which `Offer.counter` never sets, so it is None.
- `Trader.reject` with a counter on a RECEIVED offer calls `Offer.counter`, whose INITIAL-state assertion fails.
- `propose` stores `hash(prev)` even when `prev` is None.
- `is_counter` compares the counter's prefix with the original's action list by object identity. A counter that arrives over the network was unpickled, so it shares no action object with the proposer's chain. `add_counter` therefore refuses every such counter of an original with at least one action, provided the copy's identities are fresh, i.e. numbered from a `base` above every identity of the original (`Chains.CopiedCounterRefused`). `__recv` never records a counter that shares no action object with a non-empty original (`Trading.Trader.CounterHandled`), and with such a fresh `base` that is every counter from the network. Such an offer never reaches DECIDING. `Chains.IsValueCounter` is the by-value check the comments describe; every counter `is_counter` accepts passes it, and a copied counter passes it exactly when the counter did.
- A failed fill of the roster (a missing key) makes `__handle_coordinated_message__` return False; an empty roster raises an `IndexError`, which the handler does not catch.
- `Coordinated.on_receive` raises on every decodable message from a known sender, because `HOST_PID` is unqualified.
- `deCoordinated.on_receive`, for an unknown sender, goes through a misspelled logger call (`log.erro`) that itself raises. It is modelled as a dropped message; the coordinator state is unchanged either way.

## Model

| member | source | states |
|---|---|---|
| Chains.NewAction | Offer.py:235-242 | an action is built exactly when its content is non-empty, with the given owner and content |
| Chains.HashAction | Offer.py:244-245 | an action's hash covers its owner and content and not the object |
| Chains.ActionKeys | Offer.py:208-209 | the hashes of a list of actions, one per action, in order |
| Chains.Hash | Offer.py:208-209 | a chain's hash is never `hash(None)`, has the chain's owner, and one action hash per action in order |
| Chains.NewChain | Offer.py:184-188 | a new chain has the given owner, actions and prev, and no OKs |
| Chains.HashOrNone | Offer.py:71 | `hash(prev)` is the None key exactly when no previous chain is given |
| Chains.LookupKey | Trader.py:218-228 | looking up by a stored `prev` hash uses that hash itself; a missing prev looks up `hash(None)` |
| Chains.AddOk | Offer.py:190-192 | records or overwrites the OK of one pid, keeps every other OK, and leaves hash and prev unchanged |
| Chains.AddAction | Offer.py:194-195 | appends exactly one action at the end, keeping the earlier actions, owner, OKs and prev |
| Chains.Take | Offer.py:206 | Python's clamped slice `s[0:n]`: length min(n, len s), a prefix of s |
| Chains.IsCounter | Offer.py:203-206 | a counter `is_counter` accepts has the original's owner and names the original's hash as prev |
| Chains.Copy | Offer.py:101 | a deep copy keeps owner, OKs, prev and every action's owner and content, with action objects numbered from `base` (new ones when `base` is above every identity in use) |
| Chains.Counter | Offer.py:197-198 | the counter keeps the owner, has actions = old ++ xs, prev = hash(old), no OKs, and is a valid counter of the original |
| Chains.HashInjective | Offer.py:208-209 | two chains hash equal iff the owners agree and the actions agree by owner and content, position by position |
| Chains.HashIgnoresOksAndPrev | Offer.py:208-209 | replacing OKs and prev leaves the hash unchanged |
| Chains.CopyKeepsHash | Offer.py:101 | a deep copy hashes as the original |
| Chains.IsCounterIff | Offer.py:203-206 | `is_counter` holds iff the owners match, prev names the original, and the counter's first actions are the original's action objects, in order |
| Chains.EditedPrefixIsNotCounter | Offer.py:203-206 | another action object at any shared-prefix position (an edit, or an equal-valued copy) makes a chain an invalid counter |
| Chains.ShorterIsNotCounter | Offer.py:203-206 | a chain shorter than the original is never a valid counter |
| Chains.CounterIsValueCounter | Offer.py:200-206 | every counter `is_counter` accepts is a counter by value (owner and content) too |
| Chains.UnsharedIsNotCounter | Offer.py:203-206 | a counter sharing no action object with a non-empty original is refused |
| Chains.CopiedCounterRefused | Offer.py:200-206 | a deep copy of any counter is refused by `is_counter` once the original has an action, though it is a counter by value exactly when the counter was |
| Chains.CounterRoundTrip | Offer.py:197-206 | every valid counter equals `original.counter(appended actions)`, up to its OKs |
| Chains.CounterChangesHash | Offer.py:197-198 | countering with at least one action gives a chain with a different hash |
| Chains.AddActionRehashes | Offer.py:255-263 | after `add_action` the hash is that of (owner, actions ++ [a]) and differs; `add_ok` keeps it |
| Offers.Sign | Offer.py:21-23 | signing sets the signature and keeps sender, type and chain |
| Offers.OkReply | Offer.py:25-26 | `ok` yields an OK message for the same chain with the given sender and signature |
| Offers.Unpickled | deCoordinated.py:357 | an unpickled message keeps sender, type, signature and routing (chain hash and prev) and holds action objects numbered from `base` (new ones when `base` is above every identity in use) |
| Offers.MessageKind | Offer.py:140-153 | PROPOSING→PROPOSE, OKED→OK, COUNTERED→COUNTER and COMITTING→COMMIT; every other state gives no message |
| Offers.Offer.constructor | Offer.py:53-57 | a new offer is INITIAL, with no prev and no counters |
| Offers.Offer.Respondants | Offer.py:62-63 | a pid responded iff it has an OK on the chain or a counter |
| Offers.Offer.Propose | Offer.py:65-73 | from INITIAL: PROPOSING with the chain, prev = hash(previous chain or None), counters cleared |
| Offers.Offer.Counter | Offer.py:75-81 | from INITIAL: COUNTER state holding the counter chain |
| Offers.Offer.Commit | Offer.py:83-91 | from PROPOSING with no counters: COMITTING |
| Offers.Offer.Abort | Offer.py:93-94 | from any state: ABORTED |
| Offers.Offer.Receive | Offer.py:96-103 | from INITIAL: RECEIVED holding a deep copy of the chain: action objects numbered from `base`, the same hash |
| Offers.Offer.Ok | Offer.py:105-109 | from RECEIVED: OKED, with `OKs[pid] = signature` recorded on the chain |
| Offers.Offer.MakeCounter | Offer.py:111-119 | from RECEIVED with a counter `is_counter` accepts: COUNTERED, and `counters[pid]` is a new offer in COUNTER state holding the counter chain; other counters kept |
| Offers.Offer.Committed | Offer.py:121-123 | `committed()` changes nothing, since it compares instead of assigning |
| Offers.Offer.AddOkTo | Offer.py:125-127 | records the OK on the chain; the chain's hash is unchanged |
| Offers.Offer.AddCounter | Offer.py:129-138 | accepted iff `is_counter` (by object identity) holds; a rejected chain leaves `counters` unchanged; an accepted one adds a fresh COUNTER offer under the pid |
| Offers.Offer.GetMessage | Offer.py:140-159 | a message exists iff the state maps to a type; it is sent by the given pid, unsigned, and carries the chain (or, when COUNTERED, the pid's counter offer) |
| Offers.Offer.Key | Offer.py:161-162 | an offer's hash is its chain's: never `hash(None)`, and OKs added to the chain do not move it |
| Trading.Recipients | Trader.py:105-109 | broadcast targets are exactly the participants other than the own pid, each as many times as it is listed |
| Trading.Addressed | Trader.py:107-109 | one copy of the message per recipient, in order |
| Trading.AddressedAppend | Trader.py:107-109 | addressing distributes over concatenation of recipient lists |
| Trading.BroadcastStep | Trader.py:107-109 | one more listed participant adds at most its own send, at the end, so the sends follow list order |
| Trading.CompletesSet | Trader.py:153-155 | `a ∪ {x} = b` in member-wise terms (used to characterise "all responded") |
| Trading.Trader.constructor | Trader.py:11-13 | a new trader has no offers, an empty outbox and no callbacks |
| Trading.Trader.HasOffer | Trader.py:218-219 | a tracked hash is never `hash(None)` |
| Trading.Trader.AddOffer | Trader.py:221-222 | indexes the offer under its chain hash, replacing any offer with that hash |
| Trading.Trader.PopOffer | Trader.py:227-228 | removes and returns exactly the offer under the key |
| Trading.Trader.Broadcast | Trader.py:105-109 | appends the message once for every participant except the own pid, and to no one else |
| Trading.Trader.ProposeOffer | Trader.py:111-119 | broadcasts one PROPOSE carrying the chain, signed with the own pid |
| Trading.Trader.OfferChain | Trader.py:49-58 | indexes a fresh PROPOSING offer under hash(chain), with prev = hash(previous), and sends one signed PROPOSE to every other participant |
| Trading.Trader.OkOffer | Trader.py:133-140 | the offer becomes OKED with the own OK recorded, and exactly one signed OK goes to the chain's owner |
| Trading.Trader.Accept | Trader.py:60-85 | a tracked RECEIVED offer is OKed, sending one OK to the owner, and no other tracked offer changes; an untracked one changes nothing; a counter whose original is DECIDING aborts and drops the original and proposes the counter with prev = original's hash, leaving the counter offer and every other offer untouched; anything else changes nothing |
| Trading.Trader.Reject | Trader.py:87-101 | nothing changes; an untracked original is the KeyError (`UnknownOffer`); the assertion fails exactly on a tracked RECEIVED offer with a counter chain; otherwise handled |
| Trading.Trader.AllResponded | Trader.py:153-155 | true iff (OK senders ∪ counter senders ∪ {own pid}) equals the participant set |
| Trading.Trader.CommitOffer | Trader.py:121-131 | COMITTING, one signed COMMIT to every other participant, and `committed(chain)` reported once |
| Trading.Trader.ResponsesReceived | Trader.py:145-151 | no counters: commit as above; otherwise DECIDING and `respond(offer)` once, with no COMMIT sent |
| Trading.Trader.HandleOk | Trader.py:183-187 | an OK is routed by hash(chain) and records `OKs[sender]`; once all responded, decides; only the routed offer changes; an unknown hash changes nothing |
| Trading.Trader.HandleCounter | Trader.py:189-193 | a COUNTER is routed by the chain's prev and adds `counters[sender]` only if `is_counter` accepts it, so never for a counter sharing no action object with a non-empty original; once all responded, decides; only the routed offer changes; an unknown prev changes nothing |
| Trading.Trader.HandlePropose | Trader.py:198-206 | drops the offer named by prev if tracked, indexes a fresh RECEIVED offer holding a deep copy of the chain under its hash, calls `respond` once, and sends nothing; no tracked offer changes |
| Trading.Trader.HandleCommit | Trader.py:208-212 | reports `committed(chain)` for a tracked offer; an unknown hash changes nothing; offers and outbox are untouched |
| Trading.Trader.Recv | Trader.py:157-213 | each message type has its handler's whole effect (OK, COUNTER, PROPOSE, COMMIT as above), and only the routed offer can change |
| Roster.SeedConsistent | deCoordinated.py:140-146 | the host's seed registry {own: 0}, [own] is consistent |
| Roster.JoinConsistent | deCoordinated.py:100-108 | adding a new identity under pid = len(participants) keeps `participants[pids[p]] == p` in both directions |
| Roster.Admit | deCoordinated.py:255-266 | a known identity, or any identity once accepting stopped, leaves the registry unchanged; otherwise it is appended with the next pid |
| Roster.AdmitAll | deCoordinated.py:255-266 | after a sequence of requests while accepting, every requested identity is registered and no registered pid changes |
| Roster.AdmitAllConsistent | deCoordinated.py:255-266 | after any sequence of join requests the registry is consistent and only extended at the end |
| Roster.ConsistentDistinct | deCoordinated.py:100-108 | a consistent registry lists no identity twice |
| Roster.DistinctCardinality | deCoordinated.py:100-108 | a list without repetitions has as many elements as its set |
| Roster.PidsAreRange | test_network.py:37-38 | in a consistent registry the pid values are exactly 0..n-1, one per identity |
| Roster.IndexOf | deCoordinated.py:318 | `list.index`: the first position of the identity |
| Roster.Later | deCoordinated.py:319 | the part of the participant list after one's first occurrence |
| Roster.LaterAreHigherPids | deCoordinated.py:318-325 | the peers dialled (listed after oneself) are exactly those with a higher pid; one's position is one's pid |
| Roster.OneDialPerPair | deCoordinated.py:305-325 | of any two registered peers exactly one dials the other |
| Membership.ToGuests | deCoordinated.py:166-176 | every send goes to a guest with pid ≥ 1 that has a channel and carries that guest's payload, and every such guest is sent to; none to pid 0 |
| Membership.Guests | deCoordinated.py:166-176 | the guest positions with a channel, each once, in increasing order |
| Membership.ToGuestsExact | deCoordinated.py:166-176 | exactly one send per guest with a channel, in pid order: the j-th send goes to the j-th such guest |
| Membership.RosterNeverToHost | deCoordinated.py:166-176 | every RES_PARTICIPANTS sent carries a guest's own pid ≠ 0 and the full participants and pids |
| Membership.Coordinator.constructor | deCoordinated.py:239-248 | NOT_CONFIGURED, with no registry, no connections, no sends or dials, not accepting or listening, and every signal (all joined, all acked, filled) clear |
| Membership.Coordinator.GetParticipants | deCoordinated.py:89-90 | the pids registered in `pids` |
| Membership.Coordinator.IsReady | deCoordinated.py:128-129 | ready exactly in state READY |
| Membership.Coordinator.Send | deCoordinated.py:114-122 | one send over the participant's channel; a participant with no channel gets nothing and no error |
| Membership.Coordinator.SendToPid | deCoordinated.py:84-87 | a trading message goes over the channel of `participants[pid]`, if any; a pid past the end of the list raises and sends nothing |
| Membership.Coordinator.AddParticipant | deCoordinated.py:100-108 | pid = current length of participants; appended; consistency kept for a new identity |
| Membership.Coordinator.AddConnection | deCoordinated.py:110-112 | stores the channel under the identity |
| Membership.Coordinator.SendToGuests | deCoordinated.py:166-176 | the host's loop sends exactly the guest messages described by ToGuests |
| Membership.Coordinator.Setup | deCoordinated.py:228-237 | host: registry {own: 0}, accepting and listening, ACCEPTING_GUESTS; guest: refused without a host identity, otherwise registry {host: 0} and connecting to the host; the host's setup clears the all-joined and all-acked signals (new Events), the guest's clears the filled signal; every other field is kept |
| Membership.Coordinator.HostBeginRoundRobin | deCoordinated.py:124-125 | raises the all-joined signal |
| Membership.Coordinator.HostSendParticipants | deCoordinated.py:152-176 | stops accepting; acks = host only; RES_PARTICIPANTS with each guest's own pid sent to every guest; registry, own pid, channels, dials and signals are kept |
| Membership.Coordinator.ResetAcks | deCoordinated.py:159-161 | one acknowledgement entry per participant, only the host's own set |
| Membership.Coordinator.AckParticipant | deCoordinated.py:280-286 | marks the pid; all-acked is raised exactly when every entry is true; an out-of-range pid raises and changes nothing |
| Membership.Coordinator.HostBeginConnectSeq | deCoordinated.py:178-194 | BEGIN_CONNECT_SEQ sent to every guest, then READY; nothing but state, outbox and setup step changes |
| Membership.Coordinator.GuestConnectAttempt | deCoordinated.py:208-218 | one dial of the host; on success the channel is kept and the guest waits for the roster; nothing but dials, channels and setup step changes |
| Membership.Coordinator.GuestAwaitRoster | deCoordinated.py:220-226 | once the roster is filled, the guest's setup ends |
| Membership.Coordinator.HostOnNewConnection | deCoordinated.py:255-266 | the registry follows Admit; a refused connection changes nothing; an admitted one gets a channel and one JOINED message; consistency kept; only registry, channels and outbox change, so admissions chain |
| Membership.Coordinator.GuestOnNewConnection | deCoordinated.py:269-274 | a known participant connecting in gets a channel; an unknown one fails the assertion and changes nothing |
| Membership.Coordinator.FillParticipants | deCoordinated.py:288-298 | adopts own_pid, participants and pids in order, stopping at a missing key (ill-formatted exactly when a key is missing); an empty roster raises; otherwise one ACK_PARTICIPANTS to participants[0] and the filled signal; nothing but own pid, registry, outbox and filled signal changes |
| Membership.Coordinator.HandleCoordinatedMessage | deCoordinated.py:332-349 | RES_PARTICIPANTS and BEGIN_CONNECT_SEQ act only from pid 0, ACK_PARTICIPANTS only at the host; RES_PARTICIPANTS answers as the fill does (False on a missing key, raised on an empty roster); ACK_PARTICIPANTS marks the guest and raises the all-acked signal exactly when every entry is marked; BEGIN_CONNECT_SEQ starts the sequence; each branch keeps every field it does not name; a missing type key is ill-formatted; anything else changes nothing |
| Membership.Coordinator.SequenceProceed | deCoordinated.py:300-318 | once len(connections) ≥ own_pid: stop accepting; dial exactly the participants after one's own position, in list order; none left means READY; only the accepting and listening flags, the sequence and the state change |
| Membership.Coordinator.SequenceDial | deCoordinated.py:319-328 | one dial of the next target; after the last target every target has a channel and the state is READY; only dials, channels, the sequence and the state change |
| Membership.Coordinator.OnReceive | deCoordinated.py:356-384 | an unknown sender is dropped; a dictionary with the type key has exactly the coordinator handler's reply and effect, one without it is ignored; any other message goes to the trader as unpickled (action objects numbered from `base`, same routing); only the coordinator path changes state |
| Coordination.SeedRegistry | Coordinated.py:49-51 | the host's seed {0: own} has contiguous keys and distinct identities |
| Coordination.RosterSends | Coordinated.py:71-78 | the host's roster loop: position j goes to pid j's identity and carries own_pid j and the full dictionary |
| Coordination.Join | Coordinated.py:126-135 | after a join request the identity is registered |
| Coordination.JoinAll | Coordinated.py:126-135 | after a sequence of accepted requests the last requested identity is registered |
| Coordination.JoinKeepsRegistry | Coordinated.py:126-133 | a join keeps the keys contiguous from 0 and the identities distinct, and loses no registered identity |
| Coordination.AppendContiguous | Coordinated.py:132 | storing under `len(participants)` keeps the keys contiguous |
| Coordination.AppendInjective | Coordinated.py:129-132 | storing an identity not yet present keeps identities distinct |
| Coordination.AppendKeepsValues | Coordinated.py:132 | storing under a fresh key keeps every registered identity |
| Coordination.JoinsKeepRegistry | Coordinated.py:126-135 | after any sequence of requests the keys are contiguous, identities distinct, and every requested identity is registered |
| Coordination.JoinsKeepValues | Coordinated.py:126-135 | a registered identity stays registered through any later requests |
| Coordination.Coordinated.constructor | Coordinated.py:116-124 | a new coordinator knows its role and identity and has an empty registry |
| Coordination.Coordinated.Setup | Coordinated.py:106-113 | host: participants {0: own} and lookup {own: 0}, accepting; guest: refused without host info, otherwise lookup {host: 0} and connecting |
| Coordination.Coordinated.HostOnNewConnection | Coordinated.py:126-135 | while accepting, a new identity is stored under key len(participants); a known identity or a request after accepting stopped leaves participants unchanged; contiguity and distinctness kept |
| Coordination.Coordinated.HostSendParticipants | Coordinated.py:63-78 | stops accepting, then sends RES_PARTICIPANTS to every pid, the host's own included |
| Coordination.Coordinated.SendRosters | Coordinated.py:71-78 | the send loop produces exactly RosterSends over all pids |
| Coordination.Coordinated.GuestConnectAttempt | Coordinated.py:92-94 | one dial of the host; success moves on to waiting for the roster |
| Coordination.Coordinated.OnReceive | Coordinated.py:139-163 | an unknown sender or undecodable text returns; every other message raises; nothing changes |
| Turns.Turn.constructor | Turn.py:26-29 | a new turn has the given owner and actions and no OKs |
| Turns.Turn.AddOk | Turn.py:31-33 | sets `OKs[pid] = sig`, overwriting an earlier entry and keeping the others |
| Turns.Turn.Counter | Turn.py:35-36 | a fresh turn with the same owner, actions ++ [a] and no OKs, hashing differently; the original is untouched |
| Turns.Turn.Key | Turn.py:38-39 | a turn hashes as a chain with its owner and actions does, whatever that chain's OKs and prev |
| Turns.TurnKeyIff | Turn.py:38-39 | two turns, or a turn and a chain, hash equal iff the owners agree and the actions agree by owner and content; OKs play no part |
| Turns.ActionHashIff | Turn.py:47-48 | actions hash equal iff owner and content agree, whether or not they are the same object |
| Turns.TurnOk | Turn.py:17-18 | an OK message for the same turn with the given sender and signature |

## Left out

- Threads, `Event`, `Lock`, `sleep` retries and the `input()` prompt: replaced by step methods whose preconditions stand for the awaited event; interleavings of concurrent handlers are not modelled.
- Serialisation (`pickle` plus hex, `json`): messages are already-decoded datatypes; a JSON decode failure is a boolean parameter.
- Python's integer hash values and their possible collisions: hashes are injective keys.
- Chains.LookupKey: looking a stored `prev` hash up as itself assumes `hash(h) == h` and one hash function on all participants. In CPython `hash(n) == n` only for |n| < 2^61 − 1, and `hash(-1) == -2`; a 64-bit tuple hash is often outside that range, and `str` hashes are salted per process. So the `prev` lookups at Trader.py:77-78, 190 and 200-202 may miss in the source where the model finds the offer.
- Aliasing of `Chain` objects: chains are values. Of a deep copy, only the new action identities are modelled. `Offer.ok` and `__recv`'s `add_ok` reassign the offer's chain rather than mutating a shared object. `__ok` reads the chain owner before the OK is added (the owner never changes).
- Dictionary iteration order: `respondants` is a set (its only use is a set comparison). The host's `pids.items()` loops are modelled over `participants` in pid order; the two agree for a consistent registry, which the host loops require.
- Trading.Trader.HandlePropose: the source tests `message.chain.prev` for truthiness, so a prev hash of 0 is treated as absent; the model treats every present prev as present.
- A PROPOSE, OK or COMMIT carrying the counter-offer body produced in the COUNTERED state is routed by that body's chain; the source would hash the Offer object, which hashes its chain as well.
- Chains.Copy: `base` is a free parameter, and `Offers.Unpickled`, `Offers.Offer.Receive`, `Trading.Trader.Recv` and `Membership.Coordinator.OnReceive` do not require it to exceed every identity in use. The model therefore admits a copy that reuses identities, which Python's deep copy and unpickling never produce; the refusal of network counters holds under that freshness premise only (`Chains.CopiedCounterRefused`).
- Membership.Coordinator.constructor: the source creates `own_pid`, the accepting flag and the three Events only in `setup` (and `__fill_participants__`); before that they do not exist. The model gives them initial values (pid 0, false, clear).
- Membership.Coordinator.HandleCoordinatedMessage: BEGIN_CONNECT_SEQ runs the whole connection sequence inside the handler in the source. The model only starts it; `SequenceProceed` and `SequenceDial` carry it on.
- Membership.Coordinator.HostOnNewConnection: the source checks the raw connection object against `pids` but registers its identity (`get_conn_info`); the model identifies a connection with its identity.
- Attributes that the source creates lazily (`participants_ack`, the events, `participants_filled`) start with empty or false values in the constructors.
- Coordination: a connection identity is a dictionary keyed by `frozenset(values)` in the source; here it is an opaque string.
- `Action(owner, "")` in the source returns an object without `owner`/`content` attributes after logging; the model returns no action.
- The first `__init__` of `Chain` and `Turn` (shadowed by the second) is not modelled.
- `Trader.__counter`, `Trader.aborted`, `register_coord_callback`, `__del__`, logging and `__str__`/`__repr__` have no logic to model.
- Peer.py and the final_proj transports, game.py and the test drivers are not part of this model.

=== FILE: chain.dfy ===
/**
 * Actions and chains (Offer.py, class Action and class Chain).
 *
 * A chain is an owner-tagged, append-only list of actions, a set of OKs
 * (participant id to signature) and an optional `prev` hash naming the chain
 * it supersedes.  Python's `hash(chain)` is modelled by the injective key
 * `ChainKey(owner, action keys)`; `NoneKey` stands for `hash(None)`.
 *
 * `Action` defines `__hash__` but no `__eq__`, so two actions are equal only
 * when they are the same object.  Each action therefore carries the identity
 * of its Python object, `id`, which its hash ignores: list equality (as in
 * `is_counter`) compares identities, hashing compares owner and content.
 */
module Chains {
  import opened Wrappers

  /** Participant id: assigned from list lengths, so never negative. */
  type Pid = nat
  /** Signature slot; the source signs with the signer's own pid. */
  type Sig = int

  /** Identity of a Python object (what `is` compares). */
  type ObjId = nat

  datatype Action = Action(id: ObjId, owner: Pid, content: string)

  /** The hash of an action covers `(owner, content)`. */
  datatype ActionKey = ActionKey(owner: Pid, content: string)

  /** The hash of a chain covers `(owner, tuple(actions))`, that is the owner
      and the hash of every action in order; `NoneKey` is `hash(None)`. */
  datatype Key = ChainKey(owner: Pid, actions: seq<ActionKey>) | NoneKey

  datatype Chain = Chain(owner: Pid, actions: seq<Action>, oks: map<Pid, Option<Sig>>, prev: Option<Key>)

  /** `Action(owner, content)`, creating the object `id`: an empty content is refused. */
  function NewAction(id: ObjId, owner: Pid, content: string): (r: Option<Action>)
    ensures r.Some? <==> content != ""
    ensures r.Some? ==> r.value.id == id && r.value.owner == owner && r.value.content == content
  {
    if content == "" then None else Some(Action(id, owner, content))
  }

  /** `hash(action)`: covers owner and content, not the object's identity. */
  function HashAction(a: Action): (k: ActionKey)
    ensures k.owner == a.owner && k.content == a.content
  {
    ActionKey(a.owner, a.content)
  }

  /** The hashes of a list of actions, in order (`tuple(actions)` as hashed). */
  function ActionKeys(s: seq<Action>): (r: seq<ActionKey>)
    ensures |r| == |s|
    ensures forall i :: 0 <= i < |s| ==> r[i] == HashAction(s[i])
  {
    seq(|s|, i requires 0 <= i < |s| => HashAction(s[i]))
  }

  /** `Chain(owner, actions, prev)`: a fresh chain has no OKs. */
  function NewChain(owner: Pid, actions: seq<Action>, prev: Option<Key>): (c: Chain)
    ensures c.oks == map[]
    ensures c.owner == owner && c.actions == actions && c.prev == prev
  {
    Chain(owner, actions, map[], prev)
  }

  /** `hash(chain)`: never `hash(None)`, and blind to OKs, `prev` and the
      identities of the actions. */
  function Hash(c: Chain): (k: Key)
    ensures k != NoneKey && k.owner == c.owner && |k.actions| == |c.actions|
    ensures forall i :: 0 <= i < |c.actions| ==> k.actions[i] == HashAction(c.actions[i])
  {
    ChainKey(c.owner, ActionKeys(c.actions))
  }

  /** `hash(x)` for a `prev` argument that is a chain or None. */
  function HashOrNone(c: Option<Chain>): (k: Key)
    ensures c.None? <==> k == NoneKey
  {
    match c
    case None => NoneKey
    case Some(ch) => Hash(ch)
  }

  /** `hash(prev)` where `prev` is a stored hash or None: a hash of a hash is itself. */
  function LookupKey(prev: Option<Key>): (k: Key)
    ensures prev.Some? ==> k == prev.value
    ensures prev.None? ==> k == NoneKey
  {
    match prev
    case None => NoneKey
    case Some(h) => h
  }

  /** `chain.add_ok(pid, ok)`: records or overwrites one OK; the hash is unchanged. */
  function AddOk(c: Chain, pid: Pid, ok: Option<Sig>): (r: Chain)
    ensures Hash(r) == Hash(c) && r.prev == c.prev
    ensures r.oks.Keys == c.oks.Keys + {pid} && r.oks[pid] == ok
    ensures forall q :: q in c.oks && q != pid ==> r.oks[q] == c.oks[q]
  {
    c.(oks := c.oks[pid := ok])
  }

  /** `chain.add_action(a)`: appends exactly one action at the end. */
  function AddAction(c: Chain, a: Action): (r: Chain)
    ensures |r.actions| == |c.actions| + 1
    ensures r.actions[..|c.actions|] == c.actions && r.actions[|c.actions|] == a
    ensures r.owner == c.owner && r.oks == c.oks && r.prev == c.prev
  {
    c.(actions := c.actions + [a])
  }

  /** Python's clamped slice `s[0:n]`. */
  function Take<T>(s: seq<T>, n: nat): (r: seq<T>)
    ensures |r| == if n <= |s| then n else |s|
    ensures forall i :: 0 <= i < |r| ==> r[i] == s[i]
  {
    if n <= |s| then s[..n] else s
  }

  /** `chain.is_counter(k)`, as written: same owner, `k.prev == hash(chain)`,
      and the first `len(chain.actions)` actions of `k` are the very action
      objects of `chain` (list `==` falls back to identity for `Action`). */
  predicate IsCounter(c: Chain, k: Chain)
    ensures IsCounter(c, k) ==> k.owner == c.owner && k.prev == Some(Hash(c))
  {
    k.owner == c.owner && k.prev == Some(Hash(c)) && Take(k.actions, |c.actions|) == c.actions
  }

  /** What `is_counter` is meant to check: the counter's prefix has the same
      actions by value (owner and content), whichever objects hold them. */
  predicate IsValueCounter(c: Chain, k: Chain)
  {
    && k.owner == c.owner && k.prev == Some(Hash(c)) && |c.actions| <= |k.actions|
    && (forall i :: 0 <= i < |c.actions| ==> HashAction(k.actions[i]) == HashAction(c.actions[i]))
  }

  /** No action object of `k` is one of `c`'s. */
  predicate Unshared(c: Chain, k: Chain)
  {
    forall i, j :: 0 <= i < |c.actions| && 0 <= j < |k.actions| ==> c.actions[i].id != k.actions[j].id
  }

  /** `deepcopy(chain)` (also what unpickling a received chain amounts to):
      the same owner, OKs, `prev` and actions by value, held by new action
      objects numbered from `base` on. */
  function Copy(c: Chain, base: ObjId): (r: Chain)
    ensures r.owner == c.owner && r.oks == c.oks && r.prev == c.prev
    ensures |r.actions| == |c.actions|
    ensures forall i :: 0 <= i < |c.actions| ==>
      r.actions[i].id == base + i && HashAction(r.actions[i]) == HashAction(c.actions[i])
  {
    c.(actions := seq(|c.actions|, i requires 0 <= i < |c.actions| => c.actions[i].(id := base + i)))
  }

  /** `chain.counter(xs)`: a new chain extending this one and pointing back to it. */
  function Counter(c: Chain, xs: seq<Action>): (r: Chain)
    ensures IsCounter(c, r)
    ensures r.owner == c.owner && r.actions == c.actions + xs
    ensures r.prev == Some(Hash(c)) && r.oks == map[]
  {
    NewChain(c.owner, c.actions + xs, Some(Hash(c)))
  }

  /** Two chains hash alike exactly when they have the same owner and the same
      actions by value, in the same order. */
  lemma HashInjective(c: Chain, d: Chain)
    ensures Hash(c) == Hash(d) <==>
      && c.owner == d.owner && |c.actions| == |d.actions|
      && (forall i :: 0 <= i < |c.actions| ==>
            c.actions[i].owner == d.actions[i].owner && c.actions[i].content == d.actions[i].content)
  {
    if c.owner == d.owner && |c.actions| == |d.actions|
       && (forall i :: 0 <= i < |c.actions| ==>
             c.actions[i].owner == d.actions[i].owner && c.actions[i].content == d.actions[i].content)
    {
      assert ActionKeys(c.actions) == ActionKeys(d.actions);
    }
  }

  /** A deep copy hashes as the original does. */
  lemma CopyKeepsHash(c: Chain, base: ObjId)
    ensures Hash(Copy(c, base)) == Hash(c)
  {
    assert ActionKeys(Copy(c, base).actions) == ActionKeys(c.actions);
  }

  /** OKs and `prev` do not enter the hash. */
  lemma HashIgnoresOksAndPrev(c: Chain, oks: map<Pid, Option<Sig>>, prev: Option<Key>)
    ensures Hash(c.(oks := oks, prev := prev)) == Hash(c)
  {
  }

  /** `is_counter` in plain terms: same owner, `prev` names the original, the
      counter is at least as long and agrees with the original on its prefix. */
  lemma IsCounterIff(c: Chain, k: Chain)
    ensures IsCounter(c, k) <==>
      && k.owner == c.owner
      && k.prev == Some(Hash(c))
      && |c.actions| <= |k.actions|
      && (forall i :: 0 <= i < |c.actions| ==> k.actions[i] == c.actions[i])
  {
    if |c.actions| <= |k.actions| && (forall i :: 0 <= i < |c.actions| ==> k.actions[i] == c.actions[i]) {
      assert Take(k.actions, |c.actions|) == c.actions;
    }
    if IsCounter(c, k) {
      assert |Take(k.actions, |c.actions|)| == |c.actions|;
    }
  }

  /** Putting another action object at a shared-prefix position (an edit, a
      removal, a reordering, or an equal-valued copy) makes a chain an
      invalid counter. */
  lemma EditedPrefixIsNotCounter(c: Chain, k: Chain, i: nat)
    requires i < |c.actions| && i < |k.actions|
    requires k.actions[i] != c.actions[i]
    ensures !IsCounter(c, k)
  {
    IsCounterIff(c, k);
  }

  /** Every counter `is_counter` accepts is a counter by value too. */
  lemma CounterIsValueCounter(c: Chain, k: Chain)
    requires IsCounter(c, k)
    ensures IsValueCounter(c, k)
  {
    IsCounterIff(c, k);
  }

  /** A counter sharing no action object with a non-empty original is refused
      by `is_counter`, whatever its values. */
  lemma UnsharedIsNotCounter(c: Chain, k: Chain)
    requires |c.actions| > 0 && Unshared(c, k)
    ensures !IsCounter(c, k)
  {
    IsCounterIff(c, k);
    assert |k.actions| > 0 ==> c.actions[0].id != k.actions[0].id;
  }

  /** A deep copy of a counter (as every counter that reaches the original's
      owner over the network is) is a counter by value exactly when the
      counter was, yet `is_counter` refuses it once the original has an action. */
  lemma CopiedCounterRefused(c: Chain, k: Chain, base: ObjId)
    requires |c.actions| > 0
    requires forall i :: 0 <= i < |c.actions| ==> c.actions[i].id < base
    ensures Unshared(c, Copy(k, base))
    ensures !IsCounter(c, Copy(k, base))
    ensures IsValueCounter(c, Copy(k, base)) <==> IsValueCounter(c, k)
    ensures IsCounter(c, k) ==> IsValueCounter(c, Copy(k, base))
  {
    UnsharedIsNotCounter(c, Copy(k, base));
    if IsCounter(c, k) {
      CounterIsValueCounter(c, k);
    }
  }

  /** A shorter chain is never a valid counter. */
  lemma ShorterIsNotCounter(c: Chain, k: Chain)
    requires |k.actions| < |c.actions|
    ensures !IsCounter(c, k)
  {
    IsCounterIff(c, k);
  }

  /** Every valid counter is `c.counter(extra)` for its appended actions,
      up to the OKs it carries. */
  lemma CounterRoundTrip(c: Chain, k: Chain)
    requires IsCounter(c, k)
    ensures |c.actions| <= |k.actions|
    ensures Counter(c, k.actions[|c.actions|..]) == k.(oks := map[])
  {
    IsCounterIff(c, k);
    assert c.actions + k.actions[|c.actions|..] == k.actions;
  }

  /** Appending at least one action changes the hash. */
  lemma CounterChangesHash(c: Chain, xs: seq<Action>)
    requires xs != []
    ensures Hash(Counter(c, xs)) != Hash(c)
  {
    assert |Counter(c, xs).actions| > |c.actions|;
  }

  /** `add_action` moves the hash to the extended action list; `add_ok` keeps it. */
  lemma AddActionRehashes(c: Chain, a: Action, pid: Pid, ok: Option<Sig>)
    ensures Hash(AddAction(c, a)) == ChainKey(c.owner, Hash(c).actions + [HashAction(a)])
    ensures Hash(AddAction(c, a)) != Hash(c)
    ensures Hash(AddOk(c, pid, ok)) == Hash(c)
  {
    assert ActionKeys(c.actions + [a]) == ActionKeys(c.actions) + [HashAction(a)];
  }
}

=== FILE: coordinated.dfy ===
/**
 * The earlier coordinator (Coordinated.py, class Coordinated): the registry
 * is a dictionary from pid to connection identity, grown by the host while
 * it accepts connections, and the roster is pushed to everyone once the
 * operator closes joining.
 *
 * The blocking `input()` prompt and the connect retry loop become step
 * methods; JSON decoding becomes a flag saying whether the text decoded.
 */
module Coordination {
  import opened Wrappers
  import opened Chains
  import opened Roster

  /** The RES_PARTICIPANTS dictionary the host sends. */
  datatype RosterNote = ResponseParticipants(ownPid: Pid, participants: map<Pid, ConnInfo>)

  /** How `on_receive` ended. */
  datatype Receipt = UnknownSender | NotJson | Raised

  /** Position of the setup call. */
  datatype Stage = Idle | Accepting | RosterSent | ConnectingToHost(host: ConnInfo) | AwaitingRoster

  /** The keys are exactly 0 .. |m|-1. */
  ghost predicate Contiguous(m: map<Pid, ConnInfo>)
  {
    forall k: Pid :: k in m <==> k < |m|
  }

  /** No identity is registered under two pids. */
  ghost predicate Injective(m: map<Pid, ConnInfo>)
  {
    forall i, j :: i in m && j in m && m[i] == m[j] ==> i == j
  }

  /** The host's seed registry {0: own} has contiguous keys and distinct identities. */
  lemma SeedRegistry(own: ConnInfo)
    ensures Contiguous(map[HOST_PID := own]) && Injective(map[HOST_PID := own])
  {
    assert |map[HOST_PID := own]| == 1;
  }

  /** What the host's loop over `participants.items()` sends to the first `k` pids. */
  function RosterSends(m: map<Pid, ConnInfo>, k: nat): (r: seq<(ConnInfo, RosterNote)>)
    requires forall j: Pid :: j < k ==> j in m
    ensures |r| == k
    ensures forall j :: 0 <= j < k ==> r[j] == (m[j], ResponseParticipants(j, m))
  {
    if k == 0 then [] else RosterSends(m, k - 1) + [(m[k - 1], ResponseParticipants(k - 1, m))]
  }

  /** One accepted request on the host's registry, as a value. */
  function Join(m: map<Pid, ConnInfo>, c: ConnInfo): (r: map<Pid, ConnInfo>)
    ensures c in r.Values
  {
    if c in m.Values then m
    else
      var r := m[|m| := c];
      assert r[|m|] == c;
      r
  }

  /** The host's registry after a sequence of accepted requests: the last
      requested identity is registered (the earlier ones too on a contiguous
      registry, see `JoinsKeepValues`). */
  function JoinAll(m: map<Pid, ConnInfo>, cs: seq<ConnInfo>): (r: map<Pid, ConnInfo>)
    ensures cs != [] ==> cs[|cs| - 1] in r.Values
    decreases |cs|
  {
    if cs == [] then m else JoinAll(Join(m, cs[0]), cs[1..])
  }

  /** One join keeps the keys contiguous and the identities distinct, and
      loses no identity already registered. */
  lemma JoinKeepsRegistry(m: map<Pid, ConnInfo>, c: ConnInfo)
    requires Contiguous(m) && Injective(m)
    ensures Contiguous(Join(m, c)) && Injective(Join(m, c))
    ensures m.Values <= Join(m, c).Values
  {
    if c !in m.Values {
      AppendContiguous(m, c);
      AppendInjective(m, c);
      AppendKeepsValues(m, c);
    }
  }

  lemma AppendContiguous(m: map<Pid, ConnInfo>, c: ConnInfo)
    requires Contiguous(m)
    ensures |m| !in m && Contiguous(m[|m| := c])
  {
    assert |m| !in m;
    assert |m[|m| := c]| == |m| + 1;
  }

  lemma AppendInjective(m: map<Pid, ConnInfo>, c: ConnInfo)
    requires Contiguous(m) && Injective(m) && c !in m.Values
    ensures Injective(m[|m| := c])
  {
    assert |m| !in m;
  }

  lemma AppendKeepsValues(m: map<Pid, ConnInfo>, c: ConnInfo)
    requires Contiguous(m)
    ensures m.Values <= m[|m| := c].Values
  {
    var n := |m|;
    assert n !in m;
    forall v | v in m.Values
      ensures v in m[n := c].Values
    {
      var k :| k in m && m[k] == v;
      assert m[n := c][k] == v;
    }
  }

  class Coordinated {
    const isHost: bool
    const ownConnInfo: ConnInfo
    var participants: map<Pid, ConnInfo>
    var connInfoToPid: map<ConnInfo, Pid>
    var acceptingNewConnections: bool
    var listening: bool
    var participantsFilled: bool
    var stage: Stage
    /** Messages handed to `send`, addressed by identity. */
    var sent: seq<(ConnInfo, RosterNote)>
    /** Identities passed to `connect`, in order. */
    var dials: seq<ConnInfo>

    constructor(isHost: bool, ownConnInfo: ConnInfo)
      ensures this.isHost == isHost && this.ownConnInfo == ownConnInfo
      ensures participants == map[] && connInfoToPid == map[] && stage == Idle
      ensures !acceptingNewConnections && !listening && !participantsFilled
      ensures sent == [] && dials == []
    {
      this.isHost := isHost;
      this.ownConnInfo := ownConnInfo;
      participants := map[];
      connInfoToPid := map[];
      acceptingNewConnections := false;
      listening := false;
      participantsFilled := false;
      stage := Idle;
      sent := [];
      dials := [];
    }

    /** `setup(host_conn_info)`: the host registers itself as pid 0 and
        starts accepting; a guest refuses a missing (falsy) host identity,
        otherwise knows only the host, at pid 0, and starts connecting. */
    method Setup(hostConnInfo: Option<ConnInfo>) returns (started: bool)
      requires stage == Idle
      modifies this
      ensures started <==> isHost || (hostConnInfo.Some? && hostConnInfo.value != "")
      ensures !started ==> unchanged(this)
      ensures isHost ==>
        && participants == map[HOST_PID := ownConnInfo] && connInfoToPid == map[ownConnInfo := HOST_PID]
        && Contiguous(participants) && Injective(participants)
        && acceptingNewConnections && listening && stage == Accepting
      ensures !isHost && started ==>
        && participants == map[] && connInfoToPid == map[hostConnInfo.value := HOST_PID]
        && !participantsFilled && stage == ConnectingToHost(hostConnInfo.value)
      ensures sent == old(sent) && dials == old(dials)
    {
      if isHost {
        SeedRegistry(ownConnInfo);
        participants := map[HOST_PID := ownConnInfo];
        connInfoToPid := map[ownConnInfo := HOST_PID];
        acceptingNewConnections := true;
        listening := true;
        stage := Accepting;
        return true;
      }
      if hostConnInfo.None? || hostConnInfo.value == "" {
        return false;
      }
      participants := map[];
      connInfoToPid := map[hostConnInfo.value := HOST_PID];
      participantsFilled := false;
      stage := ConnectingToHost(hostConnInfo.value);
      return true;
    }

    /** `host_on_new_connection`: while accepting, an identity not yet
        registered is stored under the next pid `len(participants)`; a known
        identity, or any request once accepting stopped, changes nothing.
        The pid-lookup map is not updated. */
    method HostOnNewConnection(c: ConnInfo)
      modifies this`participants
      ensures participants == if acceptingNewConnections then Join(old(participants), c) else old(participants)
      ensures Contiguous(old(participants)) && Injective(old(participants)) ==>
        Contiguous(participants) && Injective(participants)
    {
      if acceptingNewConnections && c !in participants.Values {
        if Contiguous(participants) && Injective(participants) {
          JoinKeepsRegistry(participants, c);
        }
        participants := participants[|participants| := c];
      }
    }

    /** The host, once the operator confirms everyone joined: stop accepting
        and send every pid, the host's own included, its RES_PARTICIPANTS. */
    method HostSendParticipants()
      requires isHost && stage == Accepting && Contiguous(participants)
      modifies this
      ensures participants == old(participants) && connInfoToPid == old(connInfoToPid)
      ensures !acceptingNewConnections && !listening && stage == RosterSent
      ensures sent == old(sent) + RosterSends(participants, |participants|)
    {
      acceptingNewConnections := false;
      listening := false;
      SendRosters();
      stage := RosterSent;
    }

    /** The loop over `participants.items()`: with contiguous keys the items
        come in pid order. */
    method SendRosters()
      requires Contiguous(participants)
      modifies this`sent
      ensures sent == old(sent) + RosterSends(participants, |participants|)
    {
      var i := 0;
      while i < |participants|
        invariant 0 <= i <= |participants|
        invariant sent == old(sent) + RosterSends(participants, i)
      {
        sent := sent + [(participants[i], ResponseParticipants(i, participants))];
        i := i + 1;
      }
    }

    /** One `connect` attempt of the guest's loop. */
    method GuestConnectAttempt(connected: bool)
      requires stage.ConnectingToHost?
      modifies this`stage, this`dials
      ensures dials == old(dials) + [old(stage).host]
      ensures connected ==> stage == AwaitingRoster
      ensures !connected ==> stage == old(stage)
    {
      dials := dials + [stage.host];
      if connected {
        stage := AwaitingRoster;
      }
    }

    /** `on_receive`: an unknown sender or text that is not JSON returns at
        once; any other message reaches the pid check, whose unqualified
        `HOST_PID` is an undefined name, so it raises.  No path changes the
        coordinator. */
    method OnReceive(sender: ConnInfo, decodes: bool) returns (r: Receipt)
      ensures sender !in connInfoToPid <==> r == UnknownSender
      ensures r == NotJson <==> sender in connInfoToPid && !decodes
      ensures r == Raised <==> sender in connInfoToPid && decodes
    {
      if sender !in connInfoToPid {
        return UnknownSender;
      }
      if !decodes {
        return NotJson;
      }
      r := Raised;
    }
  }

  /** Joins only ever append: after any sequence of connection requests the
      registry keeps contiguous pids and distinct identities. */
  lemma {:induction false} JoinsKeepRegistry(m: map<Pid, ConnInfo>, cs: seq<ConnInfo>)
    requires Contiguous(m) && Injective(m)
    ensures Contiguous(JoinAll(m, cs)) && Injective(JoinAll(m, cs))
    ensures forall c :: c in cs ==> c in JoinAll(m, cs).Values
    decreases |cs|
  {
    if cs != [] {
      var m' := Join(m, cs[0]);
      JoinKeepsRegistry(m, cs[0]);
      JoinsKeepRegistry(m', cs[1..]);
      forall c | c in cs
        ensures c in JoinAll(m, cs).Values
      {
        if c != cs[0] {
          assert c in cs[1..];
        } else {
          JoinsKeepValues(m', cs[1..], c);
        }
      }
    }
  }

  lemma {:induction false} JoinsKeepValues(m: map<Pid, ConnInfo>, cs: seq<ConnInfo>, c: ConnInfo)
    requires Contiguous(m) && Injective(m)
    requires c in m.Values
    ensures c in JoinAll(m, cs).Values
    decreases |cs|
  {
    if cs != [] {
      JoinKeepsRegistry(m, cs[0]);
      JoinsKeepValues(Join(m, cs[0]), cs[1..], c);
    }
  }
}

=== FILE: membership.dfy ===
/**
 * The membership coordinator and its setup protocol (deCoordinated.py,
 * class deCoordinated).
 *
 * Threads, Events and sleep-based retries are replaced by step methods: a
 * method's precondition stands for "the thread has reached this point and
 * the awaited event is set", and every transport `connect` call is one step
 * whose result (a handle or failure) is a parameter.  Messages handed to the
 * transport are appended to `sent`; every `connect` call to `dials`.
 */
module Membership {
  import opened Wrappers
  import opened Chains
  import opened Offers
  import opened Roster

  /** An open channel handed back by the transport. */
  type Handle = nat

  datatype SetupState =
    | NOT_CONFIGURED | ACCEPTING_GUESTS | CONNECTING_TO_HOST | SENDING_PARTICIPANTS
    | AWAITING_PARTICIPANTS | SENT_PARTICIPANTS | AWAITING_CONNECTIONS | CONNECTING | READY

  datatype CoordTag =
    | JOINED | REQ_PARTICIPANTS | RES_PARTICIPANTS | ACK_PARTICIPANTS | BEGIN_CONNECT_SEQ
    | OtherTag(name: string)

  /** A decoded coordinator dictionary; a field is None when its key is missing. */
  datatype CoordDict = CoordDict(
    tag: Option<CoordTag>,
    senderPid: Option<Pid>,
    ownPid: Option<Pid>,
    participants: Option<seq<ConnInfo>>,
    pids: Option<map<ConnInfo, Pid>>)

  /** A decoded message: a dictionary, or a trading message for the trader. */
  datatype Payload = Dict(dict: CoordDict) | Trade(message: Message)

  /** How `__handle_coordinated_message__` ended: True, False (a missing key),
      or an exception other than KeyError escaping. */
  datatype Reply = Handled | IllFormatted | Raised

  /** Where `on_receive` sent a message.  For an unknown sender the source
      leaves through its error branch (whose misspelled `log.erro` call itself
      raises); either way nothing changes. */
  datatype Routed = UnknownSender | Coordination(reply: Reply) | Ignored | ToTrader(message: Message)

  /** Position of the setup thread. */
  datatype SetupStep =
    | Idle | AwaitingBegin | AwaitingAcks | ConnectingToHost(host: ConnInfo) | AwaitingRoster
    | Finished | Crashed

  /** Progress of the connection sequence started by BEGIN_CONNECT_SEQ. */
  datatype Sequence =
    | NotStarted | AwaitingLowerPids | Dialing(targets: seq<ConnInfo>, next: nat) | Connected | Failed

  /** A dictionary with only the type key. */
  function Signal(tag: CoordTag): CoordDict
  {
    CoordDict(Some(tag), None, None, None, None)
  }

  /** The RES_PARTICIPANTS dictionary the host sends to the guest with pid `pid`. */
  function RosterFor(pid: Pid, participants: seq<ConnInfo>, pids: map<ConnInfo, Pid>): CoordDict
  {
    CoordDict(Some(RES_PARTICIPANTS), Some(HOST_PID), Some(pid), Some(participants), Some(pids))
  }

  /** What the host sends to the guest at position `i`: its roster, or the
      begin signal. */
  function HostPayload(begin: bool, i: Pid, participants: seq<ConnInfo>, pids: map<ConnInfo, Pid>): Payload
  {
    if begin then Dict(Signal(BEGIN_CONNECT_SEQ)) else Dict(RosterFor(i, participants, pids))
  }

  /** The positions 1 .. k-1 whose participant has a channel, each once, in
      increasing order. */
  function Guests(conns: map<ConnInfo, Handle>, participants: seq<ConnInfo>, k: nat): (g: seq<nat>)
    requires k <= |participants|
    ensures forall j :: 0 <= j < |g| ==> 1 <= g[j] < k && participants[g[j]] in conns
    ensures forall i :: 1 <= i < k && participants[i] in conns ==> i in g
    ensures forall j, j' :: 0 <= j < j' < |g| ==> g[j] < g[j']
  {
    if k <= 1 then []
    else Guests(conns, participants, k - 1) + (if participants[k - 1] in conns then [k - 1] else [])
  }

  /** The sends of the host's loop over guests 1 .. k-1, skipping guests
      without a channel (`__send__` logs and sends nothing): exactly one
      message per guest with a channel, in pid order. */
  function ToGuests(conns: map<ConnInfo, Handle>, participants: seq<ConnInfo>, pids: map<ConnInfo, Pid>, begin: bool, k: nat):
    (r: seq<(Handle, Payload)>)
    requires k <= |participants|
    ensures forall e :: e in r ==>
      exists i :: 1 <= i < k && participants[i] in conns && e == (conns[participants[i]], HostPayload(begin, i, participants, pids))
    ensures forall i :: 1 <= i < k && participants[i] in conns ==>
      (conns[participants[i]], HostPayload(begin, i, participants, pids)) in r
    ensures |r| < k || k == 0
  {
    if k <= 1 then []
    else
      ToGuests(conns, participants, pids, begin, k - 1)
      + (if participants[k - 1] in conns then [(conns[participants[k - 1]], HostPayload(begin, k - 1, participants, pids))] else [])
  }

  /** The host's loop sends exactly one message per guest with a channel, in
      pid order: the j-th send goes to the j-th such guest. */
  lemma {:induction false} ToGuestsExact(conns: map<ConnInfo, Handle>, participants: seq<ConnInfo>, pids: map<ConnInfo, Pid>, begin: bool, k: nat)
    requires k <= |participants|
    ensures var r, g := ToGuests(conns, participants, pids, begin, k), Guests(conns, participants, k);
      && |r| == |g|
      && forall j :: 0 <= j < |g| ==> r[j] == (conns[participants[g[j]]], HostPayload(begin, g[j], participants, pids))
  {
    if k > 1 {
      ToGuestsExact(conns, participants, pids, begin, k - 1);
    }
  }

  /** No roster message goes to the host: every one carries a guest's own pid (>= 1). */
  lemma RosterNeverToHost(conns: map<ConnInfo, Handle>, participants: seq<ConnInfo>, pids: map<ConnInfo, Pid>, e: (Handle, Payload))
    requires e in ToGuests(conns, participants, pids, false, |participants|)
    ensures e.1.Dict? && e.1.dict.tag == Some(RES_PARTICIPANTS)
    ensures e.1.dict.ownPid.Some? && e.1.dict.ownPid.value != HOST_PID
    ensures e.1.dict.participants == Some(participants) && e.1.dict.pids == Some(pids)
  {
  }

  class Coordinator {
    const isHost: bool
    const ownConnInfo: ConnInfo
    var state: SetupState
    var ownPid: Pid
    var pids: map<ConnInfo, Pid>
    var participants: seq<ConnInfo>
    var connections: map<ConnInfo, Handle>
    var participantsAck: seq<bool>
    var acceptingNewConnections: bool
    var listening: bool
    var allParticipantsJoined: bool
    var allParticipantsAcked: bool
    var participantsFilled: bool
    var setupStep: SetupStep
    var sequence: Sequence
    var sent: seq<(Handle, Payload)>
    var dials: seq<ConnInfo>

    /** Every peer dialled so far in the connection sequence has a channel. */
    ghost predicate Valid()
      reads this
    {
      sequence.Dialing? ==>
        && sequence.next < |sequence.targets|
        && forall j :: 0 <= j < sequence.next ==> sequence.targets[j] in connections
    }

    constructor (isHost: bool, ownConnInfo: ConnInfo)
      ensures Valid()
      ensures this.isHost == isHost && this.ownConnInfo == ownConnInfo
      ensures state == NOT_CONFIGURED && connections == map[] && pids == map[] && participants == []
      ensures setupStep == Idle && sequence == NotStarted && sent == [] && dials == []
      ensures !acceptingNewConnections && !listening && participantsAck == []
      ensures ownPid == 0 && !allParticipantsJoined && !allParticipantsAcked && !participantsFilled
    {
      this.isHost := isHost;
      this.ownConnInfo := ownConnInfo;
      state := NOT_CONFIGURED;
      ownPid := 0;
      pids := map[];
      participants := [];
      connections := map[];
      participantsAck := [];
      acceptingNewConnections := false;
      listening := false;
      allParticipantsJoined := false;
      allParticipantsAcked := false;
      participantsFilled := false;
      setupStep := Idle;
      sequence := NotStarted;
      sent := [];
      dials := [];
    }

    /** `is_ready()`: true exactly in state READY.  What READY means is stated
        where it is reached: `HostBeginConnectSeq` (BEGIN_CONNECT_SEQ sent to
        every guest) and `SequenceDial` (every later participant connected). */
    predicate IsReady()
      reads this
      ensures IsReady() <==> state == READY
    {
      state == READY
    }

    /** `get_participants()`: the pids of the registry. */
    function GetParticipants(): (r: set<Pid>)
      reads this
      ensures forall p :: p in r <==> exists c :: c in pids && pids[c] == p
    {
      pids.Values
    }

    /** `__send__(c, payload)`: a participant without a channel gets nothing. */
    method Send(c: ConnInfo, payload: Payload)
      modifies this`sent
      ensures c in connections ==> sent == old(sent) + [(connections[c], payload)]
      ensures c !in connections ==> sent == old(sent)
    {
      if c !in connections {
        return;
      }
      sent := sent + [(connections[c], payload)];
    }

    /** `send_to_pid(pid, m)`: routes a trading message to `participants[pid]`;
        a pid past the end of the list is the IndexError (Raised), with
        nothing sent. */
    method SendToPid(pid: Pid, m: Message) returns (r: Reply)
      modifies this`sent
      ensures r != IllFormatted
      ensures r == Handled <==> pid < |participants|
      ensures r == Raised ==> sent == old(sent)
      ensures r == Handled && participants[pid] in connections ==>
        sent == old(sent) + [(connections[participants[pid]], Trade(m))]
      ensures r == Handled && participants[pid] !in connections ==> sent == old(sent)
    {
      if pid >= |participants| {
        return Raised;
      }
      Send(participants[pid], Trade(m));
      r := Handled;
    }

    /** `__add_participant__(c)`: pid = current length of `participants`. */
    method AddParticipant(c: ConnInfo)
      modifies this`pids, this`participants
      ensures pids == old(pids)[c := |old(participants)|] && participants == old(participants) + [c]
      ensures Consistent(old(pids), old(participants)) && c !in old(pids) ==> Consistent(pids, participants)
    {
      if Consistent(pids, participants) && c !in pids {
        JoinConsistent(pids, participants, c);
      }
      var pid := |participants|;
      pids := pids[c := pid];
      participants := participants + [c];
    }

    /** `__add_connection__(c, h)`. */
    method AddConnection(c: ConnInfo, h: Handle)
      requires Valid()
      modifies this`connections
      ensures Valid()
      ensures connections == old(connections)[c := h]
    {
      connections := connections[c := h];
    }
  
    /** The host's loop over `pids.items()` skipping pid 0: in a consistent
        registry the items come in join order, so position i carries pid i. */
    method SendToGuests(begin: bool)
      modifies this`sent
      ensures sent == old(sent) + ToGuests(connections, participants, pids, begin, |participants|)
    {
      if |participants| == 0 {
        return;
      }
      var i := 1;
      while i < |participants|
        invariant 1 <= i <= |participants|
        invariant sent == old(sent) + ToGuests(connections, participants, pids, begin, i)
      {
        Send(participants[i], HostPayload(begin, i, participants, pids));
        i := i + 1;
      }
    }

    /** `setup(host_conn_info)`: the host seeds the registry with itself and
        starts accepting guests, with fresh (clear) all-joined and all-acked
        signals; a guest without a (truthy) host identity is refused; a guest
        seeds the registry with the host at pid 0, clears its filled signal,
        listens and starts connecting to the host. */
    method Setup(hostConnInfo: Option<ConnInfo>) returns (started: bool)
      requires Valid() && setupStep == Idle
      modifies this`ownPid, this`pids, this`participants, this`acceptingNewConnections, this`listening
      modifies this`state, this`setupStep, this`participantsFilled, this`allParticipantsJoined, this`allParticipantsAcked
      ensures Valid()
      ensures started <==> isHost || (hostConnInfo.Some? && hostConnInfo.value != "")
      ensures !started ==> unchanged(this)
      ensures isHost ==>
        && ownPid == HOST_PID && pids == map[ownConnInfo := HOST_PID] && participants == [ownConnInfo]
        && Consistent(pids, participants)
        && acceptingNewConnections && listening && state == ACCEPTING_GUESTS && setupStep == AwaitingBegin
        && !allParticipantsJoined && !allParticipantsAcked && participantsFilled == old(participantsFilled)
      ensures !isHost && started ==>
        && pids == map[hostConnInfo.value := HOST_PID] && participants == [hostConnInfo.value]
        && !participantsFilled && listening && state == old(state)
        && setupStep == ConnectingToHost(hostConnInfo.value)
        && ownPid == old(ownPid) && acceptingNewConnections == old(acceptingNewConnections)
        && allParticipantsJoined == old(allParticipantsJoined) && allParticipantsAcked == old(allParticipantsAcked)
      ensures connections == old(connections) && sent == old(sent) && dials == old(dials)
    {
      if isHost {
        allParticipantsJoined := false;
        allParticipantsAcked := false;
        ownPid := HOST_PID;
        pids := map[ownConnInfo := HOST_PID];
        participants := [ownConnInfo];
        SeedConsistent(ownConnInfo);
        acceptingNewConnections := true;
        listening := true;
        state := ACCEPTING_GUESTS;
        setupStep := AwaitingBegin;
        return true;
      }
      if hostConnInfo.None? || hostConnInfo.value == "" {
        return false;
      }
      var host := hostConnInfo.value;
      pids := map[host := HOST_PID];
      participants := [host];
      participantsFilled := false;
      listening := true;
      setupStep := ConnectingToHost(host);
      return true;
    }

    /** `host_begin_round_robin()`: the operator's "everyone has joined" signal. */
    method HostBeginRoundRobin()
      modifies this`allParticipantsJoined
      ensures allParticipantsJoined
    {
      allParticipantsJoined := true;
    }

    /** The host, once everyone has joined: stop accepting, mark only itself
        as acknowledged, and send RES_PARTICIPANTS to every guest. */
    method HostSendParticipants()
      requires Valid() && isHost && setupStep == AwaitingBegin && allParticipantsJoined
      requires Consistent(pids, participants)
      modifies this`acceptingNewConnections, this`listening, this`state, this`setupStep, this`participantsAck, this`sent
      ensures Valid()
      ensures !acceptingNewConnections && !listening && state == SENDING_PARTICIPANTS
      ensures |participants| == 0 ==> setupStep == Crashed && sent == old(sent) && participantsAck == old(participantsAck)
      ensures |participants| > 0 ==>
        && setupStep == AwaitingAcks
        && |participantsAck| == |participants| && participantsAck[HOST_PID]
        && (forall j :: 0 < j < |participantsAck| ==> !participantsAck[j])
        && sent == old(sent) + ToGuests(connections, participants, pids, false, |participants|)
      ensures pids == old(pids) && participants == old(participants) && connections == old(connections)
      ensures sequence == old(sequence)
    {
      acceptingNewConnections := false;
      listening := false;
      state := SENDING_PARTICIPANTS;
      if |participants| == 0 {
        setupStep := Crashed;
        return;
      }
      ResetAcks();
      SendToGuests(false);
      setupStep := AwaitingAcks;
    }

    /** Only the host's own entry starts acknowledged. */
    method ResetAcks()
      modifies this`participantsAck
      ensures |participantsAck| == |participants|
      ensures |participants| > 0 ==> participantsAck[HOST_PID]
      ensures forall j :: 0 < j < |participantsAck| ==> !participantsAck[j]
    {
      participantsAck := seq(|participants|, j => j == HOST_PID);
    }

    /** `__ack_participant__(pid)`: marks the guest; the all-acked signal is
        raised once every entry is marked.  An index past the list raises. */
    method AckParticipant(pid: Pid) returns (r: Reply)
      modifies this`participantsAck, this`allParticipantsAcked
      ensures pid >= |old(participantsAck)| ==> r == Raised && unchanged(this)
      ensures pid < |old(participantsAck)| ==>
        && r == Handled
        && participantsAck == old(participantsAck)[pid := true]
        && (allParticipantsAcked <==> old(allParticipantsAcked) || forall j :: 0 <= j < |participantsAck| ==> participantsAck[j])
    {
      if pid >= |participantsAck| {
        return Raised;
      }
      participantsAck := participantsAck[pid := true];
      if forall j :: 0 <= j < |participantsAck| ==> participantsAck[j] {
        allParticipantsAcked := true;
      }
      r := Handled;
    }

    /** The host, once every guest acknowledged: send BEGIN_CONNECT_SEQ to
        every guest and become READY. */
    method HostBeginConnectSeq()
      requires Valid() && isHost && setupStep == AwaitingAcks && allParticipantsAcked
      requires Consistent(pids, participants)
      modifies this`state, this`sent, this`setupStep
      ensures Valid()
      ensures state == READY && setupStep == Finished
      ensures sent == old(sent) + ToGuests(connections, participants, pids, true, |participants|)
      ensures pids == old(pids) && participants == old(participants) && connections == old(connections)
      ensures sequence == old(sequence)
    {
      state := SENT_PARTICIPANTS;
      SendToGuests(true);
      state := READY;
      setupStep := Finished;
    }

    /** One attempt of the guest's connect-to-host loop. */
    method GuestConnectAttempt(h: Option<Handle>)
      requires Valid() && setupStep.ConnectingToHost?
      modifies this`dials, this`connections, this`setupStep
      ensures Valid()
      ensures dials == old(dials) + [old(setupStep).host]
      ensures h.Some? ==> connections == old(connections)[old(setupStep).host := h.value] && setupStep == AwaitingRoster
      ensures h.None? ==> connections == old(connections) && setupStep == old(setupStep)
      ensures pids == old(pids) && participants == old(participants) && sent == old(sent) && state == old(state)
    {
      var host := setupStep.host;
      dials := dials + [host];
      if h.Some? {
        AddConnection(host, h.value);
        setupStep := AwaitingRoster;
      }
    }

    /** The guest's setup thread, once the roster has arrived, ends. */
    method GuestAwaitRoster()
      requires setupStep == AwaitingRoster && participantsFilled
      modifies this`setupStep
      ensures setupStep == Finished
    {
      setupStep := Finished;
    }

    /** `__host_on_new_connection__`: while accepting, a new identity joins
        with the next pid, gets a channel and a JOINED message; a registered
        identity, or any connection once accepting stopped, changes nothing. */
    method HostOnNewConnection(c: ConnInfo, h: Handle)
      requires Valid()
      modifies this`pids, this`participants, this`connections, this`sent
      ensures Valid()
      ensures (pids, participants) == Admit(old(pids), old(participants), old(acceptingNewConnections), c)
      ensures !old(acceptingNewConnections) || c in old(pids) ==> unchanged(this)
      ensures old(acceptingNewConnections) && c !in old(pids) ==>
        && connections == old(connections)[c := h]
        && sent == old(sent) + [(h, Dict(Signal(JOINED)))]
      ensures Consistent(old(pids), old(participants)) ==> Consistent(pids, participants)
      ensures state == old(state) && setupStep == old(setupStep) && sequence == old(sequence)
    {
      if !acceptingNewConnections || c in pids {
        return;
      }
      AddParticipant(c);
      AddConnection(c, h);
      Send(c, Dict(Signal(JOINED)));
    }

    /** `__guest_on_new_connection__`: a lower-pid guest connecting in gets a
        channel; an unknown one fails the source's assertion (Raised) and
        changes nothing. */
    method GuestOnNewConnection(c: ConnInfo, h: Handle) returns (r: Reply)
      requires Valid()
      modifies this`connections
      ensures Valid()
      ensures r != IllFormatted
      ensures r == Handled <==> c in participants
      ensures r == Handled ==> connections == old(connections)[c := h]
      ensures r == Raised ==> connections == old(connections)
    {
      if c !in participants {
        return Raised;
      }
      AddConnection(c, h);
      r := Handled;
    }

    /** What `__fill_participants__` leaves behind: own pid, participants and
        pids are adopted in that order and a missing key stops it part-way
        (IllFormatted, the KeyError); an empty roster fails on
        `participants[0]` (Raised); otherwise one ACK_PARTICIPANTS goes to
        `participants[0]` and the setup thread is signalled. */
    twostate predicate Filled(d: CoordDict, r: Reply)
      reads this
    {
      && (r == IllFormatted <==> d.ownPid.None? || d.participants.None? || d.pids.None?)
      && (r == Raised <==> d.ownPid.Some? && d.participants.Some? && d.pids.Some? && d.participants.value == [])
      && (d.ownPid.None? ==> unchanged(this))
      && (d.ownPid.Some? ==> ownPid == d.ownPid.value)
      && (d.ownPid.Some? && d.participants.None? ==> participants == old(participants) && pids == old(pids))
      && (d.ownPid.Some? && d.participants.Some? ==> participants == d.participants.value)
      && (d.ownPid.Some? && d.participants.Some? && d.pids.None? ==> pids == old(pids))
      && (d.ownPid.Some? && d.participants.Some? && d.pids.Some? ==> pids == d.pids.value)
      && (r != Handled ==> sent == old(sent) && participantsFilled == old(participantsFilled))
      && (r == Handled ==>
            && participantsFilled && |participants| > 0
            && var host := participants[HOST_PID];
               sent == old(sent) + (if host in connections then [(connections[host], Dict(Signal(ACK_PARTICIPANTS)))] else []))
      && connections == old(connections) && state == old(state) && sequence == old(sequence)
      && participantsAck == old(participantsAck) && setupStep == old(setupStep)
      && allParticipantsAcked == old(allParticipantsAcked)
    }

    /** `__fill_participants__(d)`. */
    method FillParticipants(d: CoordDict) returns (r: Reply)
      requires Valid()
      modifies this`ownPid, this`participants, this`pids, this`sent, this`participantsFilled
      ensures Valid()
      ensures Filled(d, r)
    {
      if d.ownPid.None? {
        return IllFormatted;
      }
      ownPid := d.ownPid.value;
      if d.participants.None? {
        return IllFormatted;
      }
      participants := d.participants.value;
      if d.pids.None? {
        return IllFormatted;
      }
      pids := d.pids.value;
      if participants == [] {
        return Raised;
      }
      Send(participants[HOST_PID], Dict(Signal(ACK_PARTICIPANTS)));
      participantsFilled := true;
      r := Handled;
    }

    /** What `__handle_coordinated_message__(pid, d)` leaves behind:
        RES_PARTICIPANTS and BEGIN_CONNECT_SEQ count only from pid 0,
        ACK_PARTICIPANTS only at the host; a missing type key, or a missing
        key while filling, is ill-formatted (False); anything else is
        ignored (True). */
    twostate predicate CoordinationHandled(pid: Pid, d: CoordDict, r: Reply)
      reads this
    {
      && (d.tag.None? ==> r == IllFormatted && unchanged(this))
      && (d.tag.Some? && !(pid == HOST_PID && d.tag.value in {RES_PARTICIPANTS, BEGIN_CONNECT_SEQ})
                      && !(pid != HOST_PID && isHost && d.tag.value == ACK_PARTICIPANTS) ==>
            r == Handled && unchanged(this))
      && (pid == HOST_PID && d.tag == Some(BEGIN_CONNECT_SEQ) ==>
            && r == Handled && sequence == AwaitingLowerPids
            && connections == old(connections) && pids == old(pids) && participants == old(participants)
            && sent == old(sent) && state == old(state) && ownPid == old(ownPid)
            && participantsAck == old(participantsAck) && allParticipantsAcked == old(allParticipantsAcked)
            && participantsFilled == old(participantsFilled))
      && (pid == HOST_PID && d.tag == Some(RES_PARTICIPANTS) ==> Filled(d, r))
      && (pid != HOST_PID && isHost && d.tag == Some(ACK_PARTICIPANTS) ==>
            && (r == Handled <==> pid < |old(participantsAck)|)
            && (r == Handled ==>
                  && participantsAck == old(participantsAck)[pid := true]
                  && (allParticipantsAcked <==>
                        old(allParticipantsAcked) || forall j :: 0 <= j < |participantsAck| ==> participantsAck[j])
                  && ownPid == old(ownPid) && participants == old(participants) && pids == old(pids)
                  && sent == old(sent) && participantsFilled == old(participantsFilled) && sequence == old(sequence))
            && (r != Handled ==> unchanged(this)))
    }

    /** `__handle_coordinated_message__(pid, d)`. */
    method HandleCoordinatedMessage(pid: Pid, d: CoordDict) returns (r: Reply)
      requires Valid()
      modifies this`ownPid, this`participants, this`pids, this`sent, this`participantsFilled
      modifies this`sequence, this`participantsAck, this`allParticipantsAcked
      ensures Valid()
      ensures CoordinationHandled(pid, d, r)
    {
      if d.tag.None? {
        return IllFormatted;
      }
      var tag := d.tag.value;
      if pid == HOST_PID {
        if tag == RES_PARTICIPANTS {
          r := FillParticipants(d);
          return;
        } else if tag == BEGIN_CONNECT_SEQ {
          sequence := AwaitingLowerPids;
        }
      } else if isHost {
        if tag == ACK_PARTICIPANTS {
          r := AckParticipant(pid);
          return;
        }
      }
      r := Handled;
    }

    /** The connection sequence, once at least `own_pid` channels are open
        (every lower pid has connected in): stop accepting, then dial the
        participants listed after itself, in order; with none left, READY. */
    method SequenceProceed()
      requires Valid() && sequence == AwaitingLowerPids && |connections| >= ownPid
      modifies this`acceptingNewConnections, this`listening, this`sequence, this`state
      ensures Valid()
      ensures !acceptingNewConnections && !listening
      ensures ownConnInfo !in participants ==> sequence == Failed && state == old(state)
      ensures ownConnInfo in participants && Later(participants, ownConnInfo) == [] ==>
        sequence == Connected && state == READY
      ensures ownConnInfo in participants && Later(participants, ownConnInfo) != [] ==>
        sequence == Dialing(Later(participants, ownConnInfo), 0) && state == old(state)
      ensures connections == old(connections) && pids == old(pids) && participants == old(participants)
      ensures sent == old(sent) && dials == old(dials)
    {
      acceptingNewConnections := false;
      listening := false;
      if ownConnInfo !in participants {
        sequence := Failed;
        return;
      }
      var targets := Later(participants, ownConnInfo);
      if targets == [] {
        state := READY;
        sequence := Connected;
      } else {
        sequence := Dialing(targets, 0);
      }
    }

    /** One `connect` attempt of the connection sequence to the next target;
        on success the channel is kept, and after the last target, READY. */
    method SequenceDial(h: Option<Handle>)
      requires Valid() && sequence.Dialing?
      modifies this`dials, this`connections, this`sequence, this`state
      ensures Valid()
      ensures dials == old(dials) + [old(sequence).targets[old(sequence).next]]
      ensures h.None? ==> sequence == old(sequence) && connections == old(connections) && state == old(state)
      ensures h.Some? ==> connections == old(connections)[old(sequence).targets[old(sequence).next] := h.value]
      ensures h.Some? && old(sequence).next + 1 < |old(sequence).targets| ==>
        sequence == Dialing(old(sequence).targets, old(sequence).next + 1) && state == old(state)
      ensures h.Some? && old(sequence).next + 1 == |old(sequence).targets| ==>
        && sequence == Connected && state == READY
        && forall x :: x in old(sequence).targets ==> x in connections
      ensures pids == old(pids) && participants == old(participants) && sent == old(sent)
    {
      var targets, next := sequence.targets, sequence.next;
      var target := targets[next];
      dials := dials + [target];
      if h.None? {
        return;
      }
      connections := connections[target := h.value];
      if next + 1 < |targets| {
        sequence := Dialing(targets, next + 1);
      } else {
        assert forall j :: 0 <= j < |targets| ==> targets[j] in connections;
        state := READY;
        sequence := Connected;
      }
    }

    /** `on_receive(sender, message)`: an unknown sender is dropped; a
        dictionary with the type key goes to the coordinator, with that
        handler's whole effect, one without it is ignored; anything else goes
        to the trader as unpickled, its action objects new from `base` on. */
    method OnReceive(sender: ConnInfo, p: Payload, base: ObjId) returns (r: Routed)
      requires Valid()
      modifies this`ownPid, this`participants, this`pids, this`sent, this`participantsFilled
      modifies this`sequence, this`participantsAck, this`allParticipantsAcked
      ensures Valid()
      ensures sender !in old(pids) ==> r == UnknownSender && unchanged(this)
      ensures sender in old(pids) && p.Trade? ==> r == ToTrader(Unpickled(p.message, base)) && unchanged(this)
      ensures sender in old(pids) && p.Dict? && p.dict.tag.None? ==> r == Ignored && unchanged(this)
      ensures sender in old(pids) && p.Dict? && p.dict.tag.Some? ==>
        r.Coordination? && CoordinationHandled(old(pids)[sender], p.dict, r.reply)
    {
      if sender !in pids {
        return UnknownSender;
      }
      var pid := pids[sender];
      match p
      case Trade(m) =>
        r := ToTrader(Unpickled(m, base));
      case Dict(d) =>
        if d.tag.None? {
          return Ignored;
        }
        var reply := HandleCoordinatedMessage(pid, d);
        r := Coordination(reply);
    }
  }
}

=== FILE: offer.dfy ===
/**
 * Offers and wire messages (Offer.py, class Message and class Offer).
 *
 * An offer wraps one chain in a negotiation state machine.  The proposer
 * side runs INITIAL -> PROPOSING -> COMITTING (or DECIDING, set by the
 * trading engine); the cohort side runs INITIAL -> RECEIVED -> OKED or
 * COUNTERED.  ABORTED is reachable from every state.
 */
module Offers {
  import opened Wrappers
  import opened Chains

  datatype Kind = PROPOSE | OK | COUNTER | COMMIT

  /** What a message carries.  Normally a chain; in the COUNTERED branch of
      `get_message` the source puts the nested counter Offer there instead,
      whose hash is its chain's and whose own `prev` is always None. */
  datatype Body = ChainBody(chain: Chain) | CounterOfferBody(chain: Chain)
  {
    /** `hash(message.chain)`. */
    function Key(): Key
    {
      Hash(chain)
    }

    /** `message.chain.prev`. */
    function Prev(): Option<Key>
    {
      if ChainBody? then chain.prev else None
    }
  }

  datatype Message = Message(sender: Pid, kind: Kind, body: Body, signed: Option<Sig>)

  /** `pickle.loads` of a sent message: the same message whose chain is held
      by new action objects numbered from `base` on; it is routed exactly as
      the original (same hash, same `prev`). */
  function Unpickled(m: Message, base: ObjId): (r: Message)
    ensures r.sender == m.sender && r.kind == m.kind && r.signed == m.signed
    ensures r.body.ChainBody? == m.body.ChainBody? && r.body.chain == Copy(m.body.chain, base)
    ensures r.body.Key() == m.body.Key() && r.body.Prev() == m.body.Prev()
  {
    CopyKeepsHash(m.body.chain, base);
    var chain := Copy(m.body.chain, base);
    m.(body := if m.body.ChainBody? then ChainBody(chain) else CounterOfferBody(chain))
  }

  /** `message.sign(key)`: fills the signature slot and nothing else. */
  function Sign(m: Message, key: Sig): (r: Message)
    ensures r.signed == Some(key)
    ensures r.sender == m.sender && r.kind == m.kind && r.body == m.body
  {
    m.(signed := Some(key))
  }

  /** `message.ok(sender, signature)`: an OK reply about the same chain. */
  function OkReply(m: Message, sender: Pid, signature: Option<Sig>): (r: Message)
    ensures r.kind == OK && r.body == m.body
    ensures r.sender == sender && r.signed == signature
  {
    Message(sender, OK, m.body, signature)
  }

  datatype OfferState =
    | INITIAL
    | PROPOSING | COUNTER | DECIDING | COMITTING
    | RECEIVED | OKED | COUNTERED
    | COMMITTED | ABORTED

  /** The wire message an offer in `state` sends, before the nested-counter
      lookup: PROPOSING, OKED, COUNTERED and COMITTING have one, the rest none. */
  function MessageKind(state: OfferState): (k: Option<Kind>)
    ensures k.Some? <==> state in {PROPOSING, OKED, COUNTERED, COMITTING}
    ensures state == PROPOSING <==> k == Some(PROPOSE)
    ensures state == OKED <==> k == Some(OK)
    ensures state == COUNTERED <==> k == Some(Kind.COUNTER)
    ensures state == COMITTING <==> k == Some(COMMIT)
  {
    match state
    case PROPOSING => Some(PROPOSE)
    case OKED => Some(OK)
    case COUNTERED => Some(Kind.COUNTER)
    case COMITTING => Some(COMMIT)
    case _ => None
  }

  class Offer {
    var chain: Option<Chain>
    var state: OfferState
    var prev: Option<Key>
    var counters: map<Pid, Offer>

    /** Every state past INITIAL, except an abort straight from INITIAL, holds a chain. */
    ghost predicate Valid()
      reads this
    {
      state != INITIAL && state != ABORTED ==> chain.Some?
    }

    constructor (chain: Option<Chain>)
      ensures Valid()
      ensures this.chain == chain && state == INITIAL && prev == None && counters == map[]
    {
      this.chain := chain;
      state := INITIAL;
      prev := None;
      counters := map[];
    }

    /** `respondants()`: the pids that OKed, then the pids that countered. */
    function Respondants(): (r: set<Pid>)
      reads this
      requires chain.Some?
      ensures forall p :: p in r <==> p in chain.value.oks || p in counters
    {
      chain.value.oks.Keys + counters.Keys
    }

    /** `propose(c, prev)`: only from INITIAL; stores `hash(prev)` even when
        `prev` is None. */
    method Propose(c: Chain, prevChain: Option<Chain>)
      requires state == INITIAL
      modifies this
      ensures Valid()
      ensures chain == Some(c) && state == PROPOSING
      ensures prev == Some(HashOrNone(prevChain)) && counters == map[]
    {
      chain := Some(c);
      state := PROPOSING;
      prev := Some(HashOrNone(prevChain));
      counters := map[];
    }

    /** `counter(c)`: an INITIAL offer becomes a counter offer holding `c`. */
    method Counter(c: Chain)
      requires state == INITIAL
      modifies this
      ensures Valid()
      ensures state == OfferState.COUNTER && chain == Some(c)
      ensures prev == old(prev) && counters == old(counters)
    {
      state := OfferState.COUNTER;
      chain := Some(c);
    }

    /** `commit()`: only a PROPOSING offer that nobody countered. */
    method Commit()
      requires Valid() && state == PROPOSING && counters == map[]
      modifies this`state
      ensures Valid()
      ensures state == COMITTING
    {
      state := COMITTING;
    }

    /** `abort()`: from any state. */
    method Abort()
      modifies this`state
      ensures state == ABORTED
    {
      state := ABORTED;
    }

    /** `receive(c)`: only from INITIAL.  The source stores a deep copy, whose
        new action objects are numbered from `base`; the copy hashes as `c`. */
    method Receive(c: Chain, base: ObjId)
      requires state == INITIAL
      modifies this
      ensures Valid()
      ensures chain == Some(Copy(c, base)) && state == RECEIVED
      ensures Hash(chain.value) == Hash(c)
      ensures prev == old(prev) && counters == old(counters)
    {
      chain := Some(Copy(c, base));
      state := RECEIVED;
      CopyKeepsHash(c, base);
    }

    /** `ok(pid, signature)`: only from RECEIVED; records the OK. */
    method Ok(pid: Pid, signature: Option<Sig>)
      requires Valid() && state == RECEIVED
      modifies this
      ensures Valid()
      ensures state == OKED
      ensures chain == Some(AddOk(old(chain).value, pid, signature))
      ensures prev == old(prev) && counters == old(counters)
    {
      state := OKED;
      AddOkTo(pid, signature);
    }

    /** `make_counter(pid, k)`: only from RECEIVED and only with a valid counter. */
    method MakeCounter(pid: Pid, k: Chain)
      requires Valid() && state == RECEIVED
      requires IsCounter(chain.value, k)
      modifies this
      ensures Valid()
      ensures state == COUNTERED
      ensures chain == old(chain) && prev == old(prev)
      ensures counters.Keys == old(counters).Keys + {pid}
      ensures fresh(counters[pid]) && counters[pid].state == OfferState.COUNTER && counters[pid].chain == Some(k)
      ensures forall q :: q in old(counters) && q != pid ==> counters[q] == old(counters)[q]
    {
      state := COUNTERED;
      var accepted := AddCounter(pid, k);
    }

    /** `committed()`: the source compares instead of assigning, so nothing changes. */
    method Committed()
      ensures unchanged(this)
    {
    }

    /** `add_ok(pid, signature)`: records the OK on the chain; the hash is unchanged. */
    method AddOkTo(pid: Pid, signature: Option<Sig>)
      requires chain.Some?
      modifies this`chain
      ensures chain == Some(AddOk(old(chain).value, pid, signature))
      ensures Hash(chain.value) == Hash(old(chain).value)
    {
      chain := Some(AddOk(chain.value, pid, signature));
    }

    /** `add_counter(pid, k)`: an invalid counter is refused and changes nothing;
        a valid one is stored as a fresh offer in state COUNTER. */
    method AddCounter(pid: Pid, k: Chain) returns (accepted: bool)
      requires chain.Some?
      modifies this`counters
      ensures accepted <==> IsCounter(chain.value, k)
      ensures !accepted ==> counters == old(counters)
      ensures accepted ==> counters.Keys == old(counters).Keys + {pid}
      ensures accepted ==> fresh(counters[pid]) && counters[pid].state == OfferState.COUNTER && counters[pid].chain == Some(k)
      ensures accepted ==> forall q :: q in old(counters) && q != pid ==> counters[q] == old(counters)[q]
    {
      if !IsCounter(chain.value, k) {
        return false;
      }
      var counterOffer := new Offer(None);
      counterOffer.Counter(k);
      counters := counters[pid := counterOffer];
      return true;
    }

    /** `get_message(own_pid)`: the outbound message for the current state,
        sent by `ownPid` and unsigned; None for states with no wire action.
        In COUNTERED the source looks up `counters[own_pid]`. */
    function GetMessage(ownPid: Pid): (m: Option<Message>)
      reads this, if ownPid in counters then {counters[ownPid]} else {}
      requires Valid()
      requires state == COUNTERED ==> ownPid in counters && counters[ownPid].chain.Some?
      ensures m.Some? <==> MessageKind(state).Some?
      ensures m.Some? ==> m.value.sender == ownPid && m.value.kind == MessageKind(state).value
      ensures m.Some? ==> m.value.signed == None
      ensures m.Some? && state != COUNTERED ==> m.value.body == ChainBody(chain.value)
      ensures m.Some? && state == COUNTERED ==> m.value.body == CounterOfferBody(counters[ownPid].chain.value)
    {
      match state
      case PROPOSING => Some(Message(ownPid, PROPOSE, ChainBody(chain.value), None))
      case OKED => Some(Message(ownPid, OK, ChainBody(chain.value), None))
      case COUNTERED => Some(Message(ownPid, Kind.COUNTER, CounterOfferBody(counters[ownPid].chain.value), None))
      case COMITTING => Some(Message(ownPid, COMMIT, ChainBody(chain.value), None))
      case _ => None
    }

    /** `hash(offer)` is the hash of its chain, so OKs recorded on the chain
        never move an offer to another key. */
    function Key(): (k: Key)
      reads this
      requires chain.Some?
      ensures k != NoneKey && k.owner == chain.value.owner
      ensures forall p, ok :: k == Hash(AddOk(chain.value, p, ok))
    {
      Hash(chain.value)
    }
  }
}

=== FILE: roster.dfy ===
/**
 * The participant registry of the membership coordinator (deCoordinated.py),
 * as values: `pids` maps a connection identity to its pid, `participants`
 * lists identities by pid.  The host admits identities in join order, each
 * getting pid = current length of `participants`; duplicates are refused.
 */
module Roster {
  import opened Chains

  /** A connection identity, e.g. "host:port". */
  type ConnInfo = string

  const HOST_PID: Pid := 0

  /** `participants[p]` maps back to `p` in `pids`, and every entry of
      `pids` is a position in `participants` holding its key. */
  ghost predicate Consistent(pids: map<ConnInfo, Pid>, participants: seq<ConnInfo>)
  {
    && (forall i :: 0 <= i < |participants| ==> participants[i] in pids && pids[participants[i]] == i)
    && (forall c :: c in pids ==> pids[c] < |participants| && participants[pids[c]] == c)
  }

  ghost predicate Distinct<T>(s: seq<T>)
  {
    forall i, j :: 0 <= i < j < |s| ==> s[i] != s[j]
  }

  /** The host seeds the registry with itself at pid 0. */
  lemma SeedConsistent(own: ConnInfo)
    ensures Consistent(map[own := HOST_PID], [own])
  {
  }

  /** `__add_participant__` on a new identity keeps the registry consistent. */
  lemma JoinConsistent(pids: map<ConnInfo, Pid>, participants: seq<ConnInfo>, c: ConnInfo)
    requires Consistent(pids, participants) && c !in pids
    ensures Consistent(pids[c := |participants|], participants + [c])
  {
    var pids', ps' := pids[c := |participants|], participants + [c];
    forall i | 0 <= i < |ps'|
      ensures ps'[i] in pids' && pids'[ps'[i]] == i
    {
      if i < |participants| {
        assert ps'[i] == participants[i];
      }
    }
  }

  /** The registry after the host sees a connection from `c`: joined unless
      the host has stopped accepting or `c` is already registered. */
  function Admit(pids: map<ConnInfo, Pid>, participants: seq<ConnInfo>, accepting: bool, c: ConnInfo):
    (r: (map<ConnInfo, Pid>, seq<ConnInfo>))
    ensures !accepting || c in pids ==> r == (pids, participants)
    ensures accepting && c !in pids ==> r.1 == participants + [c] && r.0 == pids[c := |participants|]
  {
    if accepting && c !in pids then (pids[c := |participants|], participants + [c]) else (pids, participants)
  }

  /** The registry after a sequence of connection requests while accepting:
      every requested identity is registered, and no registered identity
      changes its pid. */
  function AdmitAll(pids: map<ConnInfo, Pid>, participants: seq<ConnInfo>, cs: seq<ConnInfo>):
    (r: (map<ConnInfo, Pid>, seq<ConnInfo>))
    ensures forall c :: c in cs ==> c in r.0
    ensures forall c :: c in pids ==> c in r.0 && r.0[c] == pids[c]
    decreases |cs|
  {
    if cs == [] then (pids, participants)
    else
      var next := Admit(pids, participants, true, cs[0]);
      AdmitAll(next.0, next.1, cs[1..])
  }

  /** After any sequence of join requests the registry is consistent and
      only grows by appending. */
  lemma {:induction false} AdmitAllConsistent(pids: map<ConnInfo, Pid>, participants: seq<ConnInfo>, cs: seq<ConnInfo>)
    requires Consistent(pids, participants)
    ensures Consistent(AdmitAll(pids, participants, cs).0, AdmitAll(pids, participants, cs).1)
    ensures participants <= AdmitAll(pids, participants, cs).1
    decreases |cs|
  {
    if cs != [] {
      var next := Admit(pids, participants, true, cs[0]);
      if cs[0] !in pids {
        JoinConsistent(pids, participants, cs[0]);
      }
      AdmitAllConsistent(next.0, next.1, cs[1..]);
    }
  }

  /** A consistent registry lists no identity twice. */
  lemma ConsistentDistinct(pids: map<ConnInfo, Pid>, participants: seq<ConnInfo>)
    requires Consistent(pids, participants)
    ensures Distinct(participants)
  {
    forall i, j | 0 <= i < j < |participants|
      ensures participants[i] != participants[j]
    {
      assert pids[participants[i]] == i && pids[participants[j]] == j;
    }
  }

  /** A sequence without repetitions has as many elements as its set. */
  lemma {:induction false} DistinctCardinality<T>(s: seq<T>)
    requires Distinct(s)
    ensures |set x | x in s| == |s|
  {
    if s != [] {
      var init := s[..|s| - 1];
      assert Distinct(init);
      DistinctCardinality(init);
      assert s[|s| - 1] !in init;
      assert (set x | x in s) == (set x | x in init) + {s[|s| - 1]};
    }
  }

  /** In a consistent registry the pids are exactly 0 .. n-1, one per
      identity: `sorted(pids.values()) == list(range(n))`. */
  lemma PidsAreRange(pids: map<ConnInfo, Pid>, participants: seq<ConnInfo>)
    requires Consistent(pids, participants)
    ensures forall p: Pid :: p in pids.Values <==> p < |participants|
    ensures |pids| == |participants|
  {
    forall i: nat | i < |participants|
      ensures i in pids.Values
    {
      assert pids[participants[i]] == i;
    }
    ConsistentDistinct(pids, participants);
    DistinctCardinality(participants);
    assert pids.Keys == set x | x in participants;
  }

  /** `list.index(x)`: the first position of `x`. */
  function IndexOf(s: seq<ConnInfo>, x: ConnInfo): (i: nat)
    requires x in s
    ensures i < |s| && s[i] == x
    ensures forall j :: 0 <= j < i ==> s[j] != x
  {
    if s[0] == x then 0 else 1 + IndexOf(s[1..], x)
  }

  /** The identities listed after `me`: whom `me` dials in the connection
      sequence, the part of the list that follows its first occurrence. */
  function Later(s: seq<ConnInfo>, me: ConnInfo): (r: seq<ConnInfo>)
    requires me in s
    ensures |r| < |s| && r == s[|s| - |r|..]
    ensures s[|s| - |r| - 1] == me && me !in s[..|s| - |r| - 1]
  {
    s[IndexOf(s, me) + 1..]
  }

  /** In a consistent registry an identity's position is its pid, and the
      identities after it are exactly those with a higher pid. */
  lemma LaterAreHigherPids(pids: map<ConnInfo, Pid>, participants: seq<ConnInfo>, me: ConnInfo, x: ConnInfo)
    requires Consistent(pids, participants) && me in pids
    ensures me in participants && IndexOf(participants, me) == pids[me]
    ensures x in Later(participants, me) <==> x in pids && pids[x] > pids[me]
  {
    assert participants[pids[me]] == me;
    var i := IndexOf(participants, me);
    assert pids[participants[i]] == i;
    if x in Later(participants, me) {
      var j :| i + 1 <= j < |participants| && participants[j] == x;
      assert pids[participants[j]] == j;
    }
    if x in pids && pids[x] > pids[me] {
      assert participants[pids[x]] == x;
      assert Later(participants, me)[pids[x] - i - 1] == x;
    }
  }

  /** For any two registered identities exactly one dials the other, so the
      connection sequence opens one channel per pair. */
  lemma OneDialPerPair(pids: map<ConnInfo, Pid>, participants: seq<ConnInfo>, a: ConnInfo, b: ConnInfo)
    requires Consistent(pids, participants) && a in pids && b in pids && a != b
    ensures a in participants && b in participants
    ensures (b in Later(participants, a)) != (a in Later(participants, b))
  {
    LaterAreHigherPids(pids, participants, a, b);
    LaterAreHigherPids(pids, participants, b, a);
    assert participants[pids[a]] == a && participants[pids[b]] == b;
  }
}

=== FILE: trader.dfy ===
/**
 * The trading engine (Trader.py, class Trader).
 *
 * It indexes offers by the hash of their chain, sends PROPOSE / OK / COMMIT
 * messages, collects OKs and counters on the proposer side, and decides
 * between committing and handing the offer back to the application.
 * Messages leave through `outbox` (recipient pid, message); the
 * application callbacks `respond(offer)` and `committed(chain)` are
 * recorded in `events`.
 */
module Trading {
  import opened Wrappers
  import opened Chains
  import opened Offers

  /** A call of an application callback. */
  datatype Event = Respond(offer: Offer) | Committed(chain: Chain)

  /** How an inbound message or an application call ended.  UnknownOffer is
      the KeyError the source raises on a lookup of an untracked hash;
      AssertionFailed is an `assert` of Offer.py failing. */
  datatype Outcome = Handled | UnknownOffer | AssertionFailed

  /** The pids `__broadcast` sends to: every participant but `own`, each as
      often as it is listed. */
  function Recipients(ps: seq<Pid>, own: Pid): (r: seq<Pid>)
    ensures forall p :: p in r <==> p in ps && p != own
    ensures forall p :: multiset(r)[p] == if p == own then 0 else multiset(ps)[p]
    ensures |r| <= |ps|
    ensures own !in ps ==> r == ps
  {
    if ps == [] then []
    else
      assert ps == ps[..|ps| - 1] + [ps[|ps| - 1]];
      Recipients(ps[..|ps| - 1], own) + (if ps[|ps| - 1] != own then [ps[|ps| - 1]] else [])
  }

  /** The same message addressed to each pid of `ps`, in order. */
  function Addressed(ps: seq<Pid>, m: Message): (r: seq<(Pid, Message)>)
    ensures |r| == |ps|
    ensures forall i :: 0 <= i < |ps| ==> r[i] == (ps[i], m)
  {
    seq(|ps|, i requires 0 <= i < |ps| => (ps[i], m))
  }

  lemma AddressedAppend(a: seq<Pid>, b: seq<Pid>, m: Message)
    ensures Addressed(a + b, m) == Addressed(a, m) + Addressed(b, m)
  {
  }

  /** One more participant in the broadcast loop adds at most its own send. */
  lemma BroadcastStep(ps: seq<Pid>, i: nat, own: Pid, m: Message)
    requires i < |ps|
    ensures Addressed(Recipients(ps[..i + 1], own), m)
         == Addressed(Recipients(ps[..i], own), m) + (if ps[i] != own then [(ps[i], m)] else [])
  {
    assert ps[..i + 1][..i] == ps[..i];
    var tail := if ps[i] != own then [ps[i]] else [];
    assert Recipients(ps[..i + 1], own) == Recipients(ps[..i], own) + tail;
    AddressedAppend(Recipients(ps[..i], own), tail, m);
  }

  /** `a + {x} == b` in terms of members. */
  lemma CompletesSet<T>(a: set<T>, x: T, b: set<T>)
    ensures a + {x} == b <==>
      x in b && (forall p :: p in b && p != x ==> p in a) && (forall p :: p in a ==> p in b)
  {
    if x in b && (forall p :: p in b && p != x ==> p in a) && (forall p :: p in a ==> p in b) {
      assert forall p :: p in a + {x} <==> p in b;
    }
  }

  class Trader {
    const ownPid: Pid
    const participants: seq<Pid>
    var offers: map<Key, Offer>
    var outbox: seq<(Pid, Message)>
    var events: seq<Event>

    /** Every tracked offer holds a chain and sits under that chain's hash. */
    ghost predicate Valid()
      reads this, offers.Values
    {
      forall k | k in offers :: offers[k].Valid() && offers[k].chain.Some? && offers[k].Key() == k
    }

    constructor (ownPid: Pid, participants: seq<Pid>)
      ensures Valid()
      ensures this.ownPid == ownPid && this.participants == participants
      ensures offers == map[] && outbox == [] && events == []
    {
      this.ownPid := ownPid;
      this.participants := participants;
      offers := map[];
      outbox := [];
      events := [];
    }

    /** `__has_offer(x)`: is `hash(x)` tracked?  Never for `hash(None)`. */
    predicate HasOffer(k: Key)
      reads this, offers.Values
      requires Valid()
      ensures HasOffer(k) ==> k != NoneKey
    {
      k in offers
    }

    /** The offer tracked under `k`, as a frame: empty when there is none. */
    function Tracked(k: Key): set<Offer>
      reads this
    {
      if k in offers then {offers[k]} else {}
    }

    /** The one tracked offer `__recv(m)` may update: the one named by the
        message's chain (OK) or by its `prev` (COUNTER); none for PROPOSE,
        which only adds a new offer, or COMMIT, whose `committed()` assigns nothing. */
    function Target(m: Message): set<Offer>
      reads this
    {
      match m.kind
      case OK => Tracked(m.body.Key())
      case COUNTER => Tracked(LookupKey(m.body.Prev()))
      case _ => {}
    }

    /** `__add_offer(o)`: indexes `o` under `hash(o)`, replacing any offer there. */
    method AddOffer(o: Offer)
      requires o.chain.Some?
      modifies this`offers
      ensures offers == old(offers)[o.Key() := o]
    {
      offers := offers[o.Key() := o];
    }

    /** `__pop_offer(x)`: removes and returns the offer under `hash(x)`. */
    method PopOffer(k: Key) returns (o: Offer)
      requires k in offers
      modifies this`offers
      ensures o == old(offers)[k] && offers == old(offers) - {k}
    {
      o := offers[k];
      offers := offers - {k};
    }

    /** `__broadcast(m)`: sends `m` once to every participant except itself, in list order. */
    method Broadcast(m: Message)
      modifies this`outbox
      ensures outbox == old(outbox) + Addressed(Recipients(participants, ownPid), m)
    {
      var i := 0;
      while i < |participants|
        invariant 0 <= i <= |participants|
        invariant outbox == old(outbox) + Addressed(Recipients(participants[..i], ownPid), m)
      {
        var p := participants[i];
        ghost var done := Addressed(Recipients(participants[..i], ownPid), m);
        BroadcastStep(participants, i, ownPid, m);
        if p != ownPid {
          outbox := outbox + [(p, m)];
          assert outbox == old(outbox) + (done + [(p, m)]);
        }
        i := i + 1;
      }
      assert participants[..i] == participants;
    }

    /** `__propose(o)`: broadcasts the offer's PROPOSE, signed with the own pid. */
    method ProposeOffer(o: Offer)
      requires o.Valid() && o.state == PROPOSING
      modifies this`outbox
      ensures outbox == old(outbox) + Addressed(Recipients(participants, ownPid), Message(ownPid, PROPOSE, ChainBody(o.chain.value), Some(ownPid)))
    {
      var m := o.GetMessage(ownPid);
      Broadcast(Sign(m.value, ownPid));
    }

    /** `offer(c, prev)`: indexes a new PROPOSING offer under `hash(c)` and
        sends one signed PROPOSE to every other participant. */
    method OfferChain(c: Chain, prevChain: Option<Chain>)
      requires Valid()
      modifies this
      ensures Valid()
      ensures Hash(c) in offers && fresh(offers[Hash(c)])
      ensures offers == old(offers)[Hash(c) := offers[Hash(c)]]
      ensures offers[Hash(c)].state == PROPOSING && offers[Hash(c)].chain == Some(c)
      ensures offers[Hash(c)].prev == Some(HashOrNone(prevChain)) && offers[Hash(c)].counters == map[]
      ensures outbox == old(outbox) + Addressed(Recipients(participants, ownPid), Message(ownPid, PROPOSE, ChainBody(c), Some(ownPid)))
      ensures events == old(events)
    {
      var o := new Offer(None);
      o.Propose(c, prevChain);
      AddOffer(o);
      ProposeOffer(o);
    }

    /** `__ok(o)`: OKs the offer with the own pid as signature and sends the
        signed OK to the chain's owner only. */
    method OkOffer(o: Offer)
      requires o.Valid() && o.state == RECEIVED
      modifies this`outbox, o
      ensures o.state == OKED && o.chain == Some(AddOk(old(o.chain).value, ownPid, Some(ownPid)))
      ensures o.prev == old(o.prev) && o.counters == old(o.counters)
      ensures outbox == old(outbox) + [(old(o.chain).value.owner, Message(ownPid, OK, ChainBody(o.chain.value), Some(ownPid)))]
    {
      o.Ok(ownPid, Some(ownPid));
      var m := o.GetMessage(ownPid);
      var leader := o.chain.value.owner;
      outbox := outbox + [(leader, Sign(m.value, ownPid))];
    }

    /** Does `accept(o)` pick a counter: `o` is a counter offer whose `prev`
        names a tracked offer that is DECIDING? */
    predicate ChoosesCounter(o: Offer)
      reads this, o, offers.Values
      requires o.Valid()
    {
      && o.state == OfferState.COUNTER
      && LookupKey(o.chain.value.prev) in offers
      && offers[LookupKey(o.chain.value.prev)].state == DECIDING
    }

    /** `accept(o)`.  A tracked RECEIVED offer is OKed and one OK goes to the
        chain's owner; an untracked one changes nothing.  A counter offer
        whose original is DECIDING aborts and drops the original and proposes
        the counter chain afresh with `prev` = the original chain.  Anything
        else changes nothing. */
    method Accept(o: Offer)
      requires Valid() && o.Valid()
      modifies this, o, if o.chain.Some? then Tracked(LookupKey(o.chain.value.prev)) else {}
      ensures Valid()
      ensures events == old(events)
      ensures old(o.state) == RECEIVED && Hash(old(o.chain).value) in old(offers) ==>
        && o.state == OKED && o.chain == Some(AddOk(old(o.chain).value, ownPid, Some(ownPid)))
        && offers == old(offers)
        && outbox == old(outbox) + [(old(o.chain).value.owner, Message(ownPid, OK, ChainBody(o.chain.value), Some(ownPid)))]
        && (forall k | k in old(offers) && old(offers)[k] != o :: unchanged(old(offers)[k]))
      ensures old(ChoosesCounter(o)) ==>
        var k := LookupKey(old(o.chain).value.prev);
        var c := old(o.chain).value;
        && unchanged(o)
        && old(offers)[k].state == ABORTED
        && Hash(c) in offers && fresh(offers[Hash(c)])
        && offers == (old(offers) - {k})[Hash(c) := offers[Hash(c)]]
        && offers[Hash(c)].state == PROPOSING && offers[Hash(c)].chain == Some(c)
        && offers[Hash(c)].prev == Some(k)
        && outbox == old(outbox) + Addressed(Recipients(participants, ownPid), Message(ownPid, PROPOSE, ChainBody(c), Some(ownPid)))
      ensures !(old(o.state) == RECEIVED && Hash(old(o.chain).value) in old(offers)) && !old(ChoosesCounter(o)) ==>
        unchanged(this) && unchanged(o) && unchanged(old(offers).Values)
    {
      if o.state == RECEIVED {
        if !HasOffer(o.Key()) {
          return;
        }
        OkOffer(o);
      } else if o.state == OfferState.COUNTER && HasOffer(LookupKey(o.chain.value.prev)) {
        var k := LookupKey(o.chain.value.prev);
        var orig := offers[k];
        if orig.state == DECIDING {
          orig.Abort();
          var popped := PopOffer(k);
          OfferChain(o.chain.value, orig.chain);
        }
      }
    }

    /** `reject(original, counter)`: never changes anything.  An untracked
        original is the KeyError of `__get_offer`.  On a RECEIVED offer with a
        counter chain the source calls `Offer.counter`, whose INITIAL-state
        assertion fails; declining a counter is a no-op. */
    method Reject(original: Chain, counter: Option<Chain>) returns (r: Outcome)
      requires Valid()
      ensures r == UnknownOffer <==> Hash(original) !in offers
      ensures r == AssertionFailed <==>
        Hash(original) in offers && offers[Hash(original)].state == RECEIVED && counter.Some?
      ensures Hash(original) in offers && r != AssertionFailed ==> r == Handled
    {
      if !HasOffer(Hash(original)) {
        return UnknownOffer;
      }
      var orig := offers[Hash(original)];
      if orig.state == RECEIVED && counter.Some? {
        return AssertionFailed;
      }
      return Handled;
    }

    /** `__all_responded(o)`: the OK senders, the counter senders and the own
        pid make up exactly the participant set. */
    function AllResponded(o: Offer): (r: bool)
      reads this, o
      requires o.chain.Some?
      ensures r <==>
        && ownPid in participants
        && (forall p :: p in participants && p != ownPid ==> p in o.chain.value.oks || p in o.counters)
        && (forall p :: p in o.chain.value.oks || p in o.counters ==> p in participants)
    {
      var everyone := set p | p in participants;
      CompletesSet(o.Respondants(), ownPid, everyone);
      o.Respondants() + {ownPid} == everyone
    }

    /** What `__responses_received(o)` leaves behind, relative to the state
        at the start of the calling method. */
    twostate predicate Decided(o: Offer, r: Outcome)
      reads this, o
    {
      && o.chain.Some?
      && if o.counters == map[] then
           if old(o.state) == PROPOSING then
             && r == Handled && o.state == COMITTING
             && outbox == old(outbox) + Addressed(Recipients(participants, ownPid), Message(ownPid, COMMIT, ChainBody(o.chain.value), Some(ownPid)))
             && events == old(events) + [Committed(o.chain.value)]
           else
             r == AssertionFailed && o.state == old(o.state) && outbox == old(outbox) && events == old(events)
         else
           && r == Handled && o.state == DECIDING
           && outbox == old(outbox) && events == old(events) + [Respond(o)]
    }

    /** `__commit(o)`: commits, broadcasts the signed COMMIT and reports `committed(chain)`. */
    method CommitOffer(o: Offer)
      requires o.Valid() && o.state == PROPOSING && o.counters == map[]
      modifies this`outbox, this`events, o`state
      ensures o.state == COMITTING
      ensures outbox == old(outbox) + Addressed(Recipients(participants, ownPid), Message(ownPid, COMMIT, ChainBody(o.chain.value), Some(ownPid)))
      ensures events == old(events) + [Committed(o.chain.value)]
    {
      o.Commit();
      var m := o.GetMessage(ownPid);
      Broadcast(Sign(m.value, ownPid));
      o.Committed();
      events := events + [Committed(o.chain.value)];
    }

    /** `__responses_received(o)`: with no counters, commit; otherwise DECIDING
        and `respond(o)`, with no COMMIT sent. */
    method ResponsesReceived(o: Offer) returns (r: Outcome)
      requires o.Valid() && o.chain.Some?
      modifies this`outbox, this`events, o`state
      ensures Decided(o, r)
      ensures o.Valid()
    {
      if |o.counters| == 0 {
        if o.state != PROPOSING {
          return AssertionFailed;
        }
        CommitOffer(o);
        r := Handled;
      } else {
        o.state := DECIDING;
        events := events + [Respond(o)];
        r := Handled;
      }
    }
  
    /** `if self.__all_responded(o): self.__responses_received(o)`. */
    method DecideIfAllResponded(o: Offer) returns (r: Outcome)
      requires o.Valid() && o.chain.Some?
      modifies this`outbox, this`events, o`state
      ensures o.Valid()
      ensures AllResponded(o) ==> Decided(o, r)
      ensures !AllResponded(o) ==> r == Handled && o.state == old(o.state) && outbox == old(outbox) && events == old(events)
    {
      if AllResponded(o) {
        r := ResponsesReceived(o);
      } else {
        r := Handled;
      }
    }

    /** What an OK leaves behind on the offer `o` it is routed to: the OK is
        recorded on `o`'s chain, nothing else of `o` changes except through
        the decision, which is taken once everyone has responded. */
    twostate predicate OkHandled(o: Offer, m: Message, r: Outcome)
      reads this, o
    {
      && offers == old(offers)
      && old(o.chain).Some? && o.chain == Some(AddOk(old(o.chain).value, m.sender, m.signed))
      && o.counters == old(o.counters) && o.prev == old(o.prev)
      && (AllResponded(o) ==> Decided(o, r))
      && (!AllResponded(o) ==> r == Handled && o.state == old(o.state) && outbox == old(outbox) && events == old(events))
    }

    /** OK (proposer side): routed by `hash(message.chain)`; records
        `OKs[sender]`, then decides once everyone has responded.  No other
        offer changes. */
    method HandleOk(m: Message) returns (r: Outcome)
      requires Valid()
      modifies this, Tracked(m.body.Key())
      ensures Valid()
      ensures m.body.Key() !in old(offers) ==> r == UnknownOffer && unchanged(this)
      ensures m.body.Key() in old(offers) ==> OkHandled(old(offers)[m.body.Key()], m, r)
    {
      if !HasOffer(m.body.Key()) {
        return UnknownOffer;
      }
      var o := offers[m.body.Key()];
      o.AddOkTo(m.sender, m.signed);
      r := DecideIfAllResponded(o);
    }

    /** What a COUNTER leaves behind on the original offer `o` it is routed
        to: the chain and `prev` stay; the sender's counter is stored exactly
        when `is_counter` accepts it, so never when the counter shares no
        action object with a non-empty original (a counter that came over the
        network, see `Chains.CopiedCounterRefused`); then the decision. */
    twostate predicate CounterHandled(o: Offer, m: Message, r: Outcome)
      reads this, o, o.counters.Values
    {
      && offers == old(offers)
      && o.chain.Some? && o.chain == old(o.chain) && o.prev == old(o.prev)
      && (IsCounter(o.chain.value, m.body.chain) ==>
            && o.counters.Keys == old(o.counters).Keys + {m.sender}
            && fresh(o.counters[m.sender])
            && o.counters[m.sender].state == OfferState.COUNTER
            && o.counters[m.sender].chain == Some(m.body.chain)
            && (forall q :: q in old(o.counters) && q != m.sender ==> o.counters[q] == old(o.counters)[q]))
      && (!IsCounter(o.chain.value, m.body.chain) ==> o.counters == old(o.counters))
      && (|o.chain.value.actions| > 0 && Unshared(o.chain.value, m.body.chain) ==> o.counters == old(o.counters))
      && (AllResponded(o) ==> Decided(o, r))
      && (!AllResponded(o) ==> r == Handled && o.state == old(o.state) && outbox == old(outbox) && events == old(events))
    }

    /** COUNTER (proposer side): routed by `message.chain.prev`; stores a
        counter for the sender only when the chain is a valid counter of the
        original, then decides once everyone has responded.  No other offer
        changes. */
    method HandleCounter(m: Message) returns (r: Outcome)
      requires Valid()
      modifies this, Tracked(LookupKey(m.body.Prev()))
      ensures Valid()
      ensures LookupKey(m.body.Prev()) !in old(offers) ==> r == UnknownOffer && unchanged(this)
      ensures LookupKey(m.body.Prev()) in old(offers) ==> CounterHandled(old(offers)[LookupKey(m.body.Prev())], m, r)
    {
      var k := LookupKey(m.body.Prev());
      if !HasOffer(k) {
        return UnknownOffer;
      }
      var o := offers[k];
      if |o.chain.value.actions| > 0 && Unshared(o.chain.value, m.body.chain) {
        UnsharedIsNotCounter(o.chain.value, m.body.chain);
      }
      var accepted := o.AddCounter(m.sender, m.body.chain);
      r := DecideIfAllResponded(o);
    }

    /** What a PROPOSE leaves behind: an offer named by the chain's `prev` is
        dropped, then a fresh RECEIVED offer holding a deep copy of the chain
        (new action objects from `base` on) is indexed under the chain's hash
        and `respond` is called once with it; nothing is sent. */
    twostate predicate ProposeHandled(m: Message, base: ObjId, r: Outcome)
      reads this, offers.Values
    {
      && r == Handled
      && m.body.Key() in offers && fresh(offers[m.body.Key()])
      && offers[m.body.Key()].state == RECEIVED && offers[m.body.Key()].chain == Some(Copy(m.body.chain, base))
      && offers[m.body.Key()].prev == None && offers[m.body.Key()].counters == map[]
      && (var dropped := if m.body.Prev().Some? && m.body.Prev().value in old(offers)
                         then old(offers) - {m.body.Prev().value} else old(offers);
          offers == dropped[m.body.Key() := offers[m.body.Key()]])
      && events == old(events) + [Respond(offers[m.body.Key()])]
      && outbox == old(outbox)
    }

    /** PROPOSE (cohort side); changes no tracked offer. */
    method HandlePropose(m: Message, base: ObjId) returns (r: Outcome)
      requires Valid()
      modifies this
      ensures Valid()
      ensures ProposeHandled(m, base, r)
    {
      if m.body.Prev().Some? && HasOffer(m.body.Prev().value) {
        var stale := PopOffer(m.body.Prev().value);
      }
      var o := new Offer(None);
      o.Receive(m.body.chain, base);
      AddOffer(o);
      events := events + [Respond(o)];
      r := Handled;
    }

    /** What a COMMIT leaves behind: `committed(chain)` reported once for the
        offer under `hash(message.chain)`, or the KeyError when there is none;
        the offers, their states and the outbox are as they were. */
    twostate predicate CommitHandled(m: Message, r: Outcome)
      reads this, offers.Values
    {
      && offers == old(offers) && outbox == old(outbox)
      && (m.body.Key() !in offers ==> r == UnknownOffer && events == old(events))
      && (m.body.Key() in offers ==>
            offers[m.body.Key()].chain.Some? &&
            r == Handled && events == old(events) + [Committed(offers[m.body.Key()].chain.value)])
    }

    /** COMMIT (cohort side): routed by `hash(message.chain)`.  The offer's
        state stays as it was, since `Offer.committed` does not assign. */
    method HandleCommit(m: Message) returns (r: Outcome)
      requires Valid()
      modifies this`events
      ensures CommitHandled(m, r)
    {
      if !HasOffer(m.body.Key()) {
        return UnknownOffer;
      }
      var o := offers[m.body.Key()];
      o.Committed();
      events := events + [Committed(o.chain.value)];
      r := Handled;
    }

    /** `__recv(message)`: dispatch on the message type, with each handler's
        whole effect.  `base` numbers the action objects of the deep copy a
        PROPOSE stores.  Only the routed offer (`Target`) can change. */
    method Recv(m: Message, base: ObjId) returns (r: Outcome)
      requires Valid()
      modifies this, Target(m)
      ensures Valid()
      ensures m.kind == OK ==>
        && (m.body.Key() !in old(offers) ==> r == UnknownOffer && unchanged(this))
        && (m.body.Key() in old(offers) ==> OkHandled(old(offers)[m.body.Key()], m, r))
      ensures m.kind == Kind.COUNTER ==>
        && (LookupKey(m.body.Prev()) !in old(offers) ==> r == UnknownOffer && unchanged(this))
        && (LookupKey(m.body.Prev()) in old(offers) ==> CounterHandled(old(offers)[LookupKey(m.body.Prev())], m, r))
      ensures m.kind == PROPOSE ==> ProposeHandled(m, base, r)
      ensures m.kind == COMMIT ==> CommitHandled(m, r)
    {
      match m.kind
      case OK => r := HandleOk(m);
      case COUNTER => r := HandleCounter(m);
      case PROPOSE => r := HandlePropose(m, base);
      case COMMIT => r := HandleCommit(m);
    }
  }
}

=== FILE: turn.dfy ===
/**
 * The earlier turn record (Turn.py): a turn is an owner, a list of actions
 * and a dictionary of OKs; countering appends one action to a copy, and the
 * hash covers `(owner, tuple(actions))` only.  The action type and its hash
 * are shared with the chain model.
 */
module Turns {
  import opened Wrappers
  import opened Chains
  import opened Offers

  class Turn {
    const owner: Pid
    const actions: seq<Action>
    var oks: map<Pid, Sig>

    /** `Turn(owner, actions)`: a new turn has no OKs. */
    constructor(owner: Pid, actions: seq<Action>)
      ensures this.owner == owner && this.actions == actions && oks == map[]
    {
      this.owner := owner;
      this.actions := actions;
      oks := map[];
    }

    /** `add_ok(pid, ok)`: records the signature, overwriting any earlier
        one from the same pid; no other entry changes (the hash reads no OKs). */
    method AddOk(pid: Pid, sig: Sig)
      modifies this`oks
      ensures oks.Keys == old(oks).Keys + {pid} && oks[pid] == sig
      ensures forall q :: q in old(oks) && q != pid ==> oks[q] == old(oks)[q]
    {
      oks := oks[pid := sig];
    }

    /** `counter(action)`: a new turn of the same owner with the action
        appended; this turn is left as it was. */
    method Counter(a: Action) returns (r: Turn)
      ensures fresh(r)
      ensures r.owner == owner && r.actions == actions + [a] && r.oks == map[]
      ensures r.Key() != Key()
    {
      r := new Turn(owner, actions + [a]);
      assert |r.Key().actions| != |Key().actions|;
    }

    /** `hash(turn)`: the key of `(owner, tuple(actions))`, which is what a
        chain of the same owner and actions hashes to, whatever its OKs. */
    function Key(): (k: Key)
      ensures forall oks, prev :: k == Hash(Chain(owner, actions, oks, prev))
    {
      ChainKey(owner, ActionKeys(actions))
    }
  }

  /** Two turns, or a turn and a chain, collide exactly when the owners agree
      and the actions agree by value, position by position; the OKs play no
      part. */
  lemma TurnKeyIff(t: Turn, u: Turn, c: Chain)
    ensures t.Key() == u.Key() <==>
      && t.owner == u.owner && |t.actions| == |u.actions|
      && (forall i :: 0 <= i < |t.actions| ==>
            t.actions[i].owner == u.actions[i].owner && t.actions[i].content == u.actions[i].content)
    ensures t.Key() == Hash(c) <==>
      && t.owner == c.owner && |t.actions| == |c.actions|
      && (forall i :: 0 <= i < |t.actions| ==>
            t.actions[i].owner == c.actions[i].owner && t.actions[i].content == c.actions[i].content)
  {
    var ct := Chain(t.owner, t.actions, map[], None);
    var cu := Chain(u.owner, u.actions, map[], None);
    assert t.Key() == Hash(ct) && u.Key() == Hash(cu);
    HashInjective(ct, cu);
    HashInjective(ct, c);
  }

  /** `hash(action)` covers `(owner, content)`: two actions hash alike
      exactly when those agree, whether or not they are the same object. */
  lemma ActionHashIff(a: Action, b: Action)
    ensures HashAction(a) == HashAction(b) <==> a.owner == b.owner && a.content == b.content
  {
  }

  /** A turn-carrying message (Turn.py, class Message). */
  datatype TurnMessage = TurnMessage(sender: Pid, kind: Kind, turn: Turn, signed: Option<Sig>)

  /** `message.ok(sender, signature)`: an OK for the same turn object, from
      the given sender with the given signature. */
  function TurnOk(m: TurnMessage, sender: Pid, signature: Sig): (r: TurnMessage)
    ensures r.kind == OK && r.turn == m.turn
    ensures r.sender == sender && r.signed == Some(signature)
  {
    TurnMessage(sender, OK, m.turn, Some(signature))
  }
}

=== FILE: wrappers.dfy ===
/** Optional values: Python's `None` and a present value. */
module Wrappers {
  datatype Option<+T> = None | Some(value: T)
}
